=== FILE: README.md ===
# One-time pad service: a Dafny model

Five C programs make up a one-time-pad service over 27 symbols, 'A'..'Z' and the space:

- `keygen` prints a random key.
- `otp_enc` and `otp_dec` are the clients. Each reads one line of text and one line of key, checks them, and sends them to a server.
- `otp_enc_d` and `otp_dec_d` are the servers. They fork one worker per connection. The worker checks the client's role tag, reads the length, text and key, transforms the text, and replies.

This project models the sequential logic underneath the sockets, fork and signals, and proves its properties:

- **Alphabet** (`alphabet.dfy`): the character-to-index map the servers use, and its inverse.
- **CStrings** (`cstrings.dfy`): the C-string view of a buffer:
  - `strlen`, bounded by the buffer;
  - `calloc`-zeroed buffers;
  - a buffer filled from received data;
  - the at-most-k bytes one `recv` can deliver.
- **Cipher** (`cipher.dfy`):
  - `encode` and `decode` per character, with C's truncating `%` written out;
  - the string transforms;
  - the server's character loop over its zeroed output buffer, and its agreement with the string transforms.
- **Validate** (`validate.dfy`): `checkTexts`, as a method with scanning loops checked against a reference verdict, and the diagnostic each client prints.
- **LengthField** (`lengthfield.dfy`):
  - the 10-byte length field, written with `sprintf("%d")`;
  - `atoi`, including leading white space, a sign, and glibc's wrap of values beyond `int` into its range;
  - the round trip between them.
- **Transfer** (`transfer.dfy`): `writeToSocket` and `readFromSocket` as methods with loops. They run against an oracle that supplies the result of each `send`/`recv` call.
- **Wire** (`wire.dfy`): roles and their tags, the answers the environment gives to socket calls, and the messages of a session.
- **Server** (`server.dfy`): `checkAndEncode` / `checkAndDecode` as a state machine over the answers to its socket calls. The machine is `Server.Step`, run by `Server.Drive`.
- **Client** (`client.dfy`):
  - `getline` and the `strcspn` that removes the newline;
  - the client's `main` as a state machine, `Client.Step` run by `Client.Drive` after validation in `Client.Main`.
- **Loopback** (`loopback.dfy`): a client and a worker wired to each other. It covers transcripts, end-to-end results, role isolation and the encrypt/decrypt round trip.
- **Keygen** (`keygen.dfy`): the mapping from draw to character, and the shape of the output.
- **Dispatcher** (`dispatcher.dfy`): the servers' `nChildren` / `childFinished` bookkeeping. It is a sequential event system, kept as written, with an honest-kernel world to state what the drain loop does.

`otp_enc.c`/`otp_dec.c` and `otp_enc_d.c`/`otp_dec_d.c` differ only in:

- the tag;
- the transform direction;
- the diagnostics.

A `Wire.Role` (`Enc`/`Dec`) selects among these, so each pair is one model.

Two facts about the code shape the model:

- **The drain loop.** The drain loop at otp_enc_d.c:252-270 decrements `nChildren` for every nonzero `waitpid` result, including -1 (see Findings).
- **The length field.** `sprintf("%d")` into the 10-byte `textLength` (otp_enc.c:210) leaves room for the terminator only up to 999999999.

## Model

| member | source | states |
|---|---|---|
| Alphabet.Index | otp_enc_d.c:39-45 | 'A'..'Z' map to 0..25 and anything below 'A' (the space) maps to 26; every symbol gets an index in 0..26 |
| Alphabet.Symbol | otp_enc_d.c:47-50 | index v in 0..25 gives 'A'+v and 26 gives the space, always an alphabet symbol, the space exactly for 26 |
| Alphabet.SymbolIndex | otp_enc_d.c:39-50 | mapping a symbol to its index and back returns the symbol |
| Alphabet.IndexSymbol | otp_dec_d.c:39-50 | mapping an index to its symbol and back returns the index |
| Alphabet.IndexInjective | otp_enc_d.c:39-45 | two symbols with the same index are the same symbol |
| CStrings.Strlen | otp_enc_d.c:35 | the length is the position of the first NUL, or the whole buffer when it holds none |
| CStrings.StrlenOfTerminated | otp_enc_d.c:35 | a NUL-free string followed by NUL has that string's length and reads back as that string, whatever follows |
| CStrings.Fit | otp_enc_d.c:151-153 | a `calloc(n)` buffer after receiving data: the data's bytes in order, NUL past them, exactly n bytes |
| CStrings.Take | otp_enc_d.c:130 | one `recv(fd, buf, k, 0)` delivers a prefix of what was sent, at most k bytes, all of it when it fits |
| Cipher.CRem | otp_dec_d.c:47 | C's `%` on int truncates: the remainder has the sign of the dividend and magnitude below the divisor, and `(a/b)*b + a%b == a` with C's truncating quotient |
| Cipher.EncodeChar | otp_enc_d.c:39-50 | for any two characters the output is the alphabet symbol of (p + k) mod 27, with p and k the indices the servers compute (26 for anything below 'A') |
| Cipher.DecodeChar | otp_dec_d.c:39-50 | for symbols the output is the symbol of (c - k + 27) mod 27 |
| Cipher.DecodeCharCloses | otp_dec_d.c:47-50 | decoding two symbols yields a symbol (the +27 keeps the operand non-negative) |
| Cipher.DecodeCharLeavesAlphabetOnForeignKey | otp_dec_d.c:43-50 | with a key character outside the alphabet ('z') decode writes '>', which is not a symbol: validation is what keeps decode in the alphabet |
| Cipher.DecodeEncodeChar | otp_dec_d.c:47-50 | for symbols, decoding the encoding under the same key character gives the character back |
| Cipher.EncodeDecodeChar | otp_enc_d.c:47-50 | for symbols, encoding the decoding under the same key character gives the character back |
| Cipher.Encode | otp_enc_d.c:33-52 | one output character per text character, every one a symbol, whatever the input |
| Cipher.Decode | otp_dec_d.c:33-53 | one output character per text character, all symbols when text and key prefix are |
| Cipher.EncodeIgnoresKeyTail | otp_enc_d.c:36-43 | only key positions below the text length are read: the key's tail does not change the result |
| Cipher.DecodeIgnoresKeyTail | otp_dec_d.c:36-43 | the same for decode |
| Cipher.DecodeEncode | otp_dec_d.c:33-53 | for alphabet text and key, decode(encode(p, k), k) == p |
| Cipher.EncodeDecode | otp_enc_d.c:33-52 | for alphabet text and key, encode(decode(c, k), k) == c |
| Cipher.TransformBuffer | otp_enc_d.c:33-52 | the server's character loop over a `calloc`-ed buffer as long as the text: position i holds the text character shifted by the key character at i when i lies before the text's first NUL, and NUL otherwise |
| Cipher.TransformBufferZeroed | otp_enc_d.c:159-164 | that buffer is the string transform (`Encode` or `Decode`) of the text's C string under the key's first strlen(text) characters, followed only by NULs, and it reads back as that transform |
| Cipher.BufferSplits | otp_enc_d.c:159-164 | the output buffer equals the transform of the text's C string under the key's first strlen(text) characters, followed by as many NULs as the buffer has left |
| Cipher.NoNulInSymbols | otp_enc_d.c:47-50 | no transform output contains NUL, so the reply's C string ends where the transform ends |
| Validate.Judge | otp_enc.c:32-56 | the reference verdict: length first, then the text's characters, then the key's; `Validate.CheckTexts` is proved to return its code |
| Validate.CheckTexts | otp_enc.c:32-56 | returns 1 iff strlen(text) <= strlen(key) and both are all symbols; -1 iff the text is longer; -2 iff lengths pass and some text character is invalid; -3 iff lengths and text pass and some key character is invalid; always the reference verdict's code |
| Validate.Complain | otp_dec.c:151-163 | -1 blames the key's length, -2 the text file, any other negative code the key's characters |
| Validate.ComplaintNamesCause | otp_enc.c:151-163 | a rejected pair gets a negative code whose diagnostic names the first failed check |
| LengthField.Decimal | otp_enc.c:210 | `%d` of a non-negative number: at least one character, every one a decimal digit, no leading zero unless the number is 0; `LengthField.DecimalValue` reads them back as the number |
| LengthField.Format | otp_enc.c:208-211 | for 0 <= n <= 999999999 the field is exactly 10 bytes whose C string is n's decimal digits |
| LengthField.DecimalFits | otp_enc.c:208-210 | up to 999999999 the digits leave room for the terminator in the 10-byte buffer |
| LengthField.DecimalValue | otp_enc_d.c:148 | the decimal digits of n read back as n |
| LengthField.Strtol | otp_enc_d.c:148 | `strtol(s, NULL, 10)`: white space skipped, an optional sign, the leading digits; `LengthField.StrtolDecimal` and `LengthField.FieldRoundTrip` state what it reads |
| LengthField.StrtolDecimal | otp_enc_d.c:148 | the digits `%d` wrote read back, through `strtol`, as the number |
| LengthField.Int32 | otp_enc_d.c:148 | a `long` stored into an `int`: always within INT_MIN..INT_MAX, congruent to the value modulo 2^32, and the value itself when it fits |
| LengthField.Atoi | otp_enc_d.c:148 | glibc's `atoi`, `(int) strtol`: within the range of `int`, equal to strtol's value when that fits, otherwise congruent to it modulo 2^32 |
| LengthField.AtoiWraps | otp_enc_d.c:145-148 | the ten digits of any value from INT_MAX + 1 to 10^10 - 1 fit the field, and `atoi` gives the value wrapped modulo 2^32, never the value itself; 2^31 gives INT_MIN and 2^32 + 5 gives 5 |
| LengthField.FieldRoundTrip | otp_enc_d.c:145-148 | `atoi` of the formatted field, whatever follows it, is n |
| LengthField.FormatInjective | otp_enc.c:208-211 | different lengths give different fields |
| Transfer.SendChunk | otp_enc_d.c:74-79 | the inner do-while: calls ask for the rest of the 1024-byte chunk, each starting where the last stopped, until the chunk is sent, a call fails, or the answers run out |
| Transfer.WriteToSocket | otp_enc_d.c:64-81 | each call asks for at most the rest of a 1024-byte chunk; on completion the bytes accepted, in call order, are exactly text[0..ntext); a negative result ends it as a failure; nothing is sent for ntext <= 0 |
| Transfer.RecvChunk | otp_enc_d.c:104-109 | the inner do-while of the read, placing each delivery at the current position |
| Transfer.ReadFromSocket | otp_enc_d.c:94-111 | each call asks for at most the rest of a 1024-byte chunk; on completion buffer[0..ntext) holds the delivered bytes in order and the rest is untouched; a recv error ends it as a failure |
| Wire.TagsDiffer | otp_enc_d.c:134-138 | the two roles' tags are equal exactly when the roles are |
| Server.Step | otp_enc_d.c:124-164 | one socket call of the worker and its effect; it carries no contract of its own, and `Server.RejectsForeignTag`, `Server.ServesMatchingPeer`, `Server.ExitTwoIffForeignTag`, `Server.ShortPayloadStalls` and `Server.OverlongLengthWraps` state what it does |
| Server.Drive | otp_enc_d.c:124-170 | the worker run over the answers to its calls, one call at a time; described by the same lemmas as `Server.Step` |
| Server.RejectsForeignTag | otp_enc_d.c:126-142 | for a foreign tag, the worker receives it, sends its own tag, closes and exits 2; no length, text, key or reply travels, whatever the peer sends next |
| Server.ServesMatchingPeer | otp_enc_d.c:144-170 | for its own tag, when text and key each arrive in full, the worker reads the length field, then n text bytes, then n key bytes, and sends exactly n reply bytes (the transform into a zeroed buffer), then closes and exits 0 |
| Server.LengthOnward | otp_enc_d.c:144-164 | once the tags matched, four answered calls read the length field, n text bytes and n key bytes, send the n-byte reply, close, and exit 0 |
| Server.TextOnward | otp_dec_d.c:152-166 | reading the text, then the key, then replying all use the one declared length n |
| Server.KeyOnward | otp_enc_d.c:154-164 | after the key is read, the reply is the transform of the text under it, exactly as long as the text buffer, and the worker closes and exits 0 |
| Server.ShortPayloadStalls | otp_enc_d.c:94-111 | a text or key that arrives short of the declared length never completes `readFromSocket`: the worker receives nothing more, sends no reply and never exits |
| Server.OverlongLengthWraps | otp_enc_d.c:145-152 | a ten-digit field above INT_MAX is read as its value wrapped into `int`: a negative result ends the worker with exit status 1 at the `calloc`, any other result becomes the length the worker reads, which differs from the digits' value |
| Server.ExitTwoIffForeignTag | otp_dec_d.c:132-144 | exit status 2 happens exactly when both tag calls succeeded and the peer's tag was foreign |
| Server.NeverTwoPast | otp_dec_d.c:134-144 | a failed tag exchange or a matching tag never leads to exit 2 |
| Server.LaterPhasesNeverTwo | otp_dec_d.c:146-173 | from the length field on, every exit is 0 or 1 |
| Client.LineEnd | otp_enc.c:140 | the index of the first newline, or the length when there is none |
| Client.Strcspn | otp_enc.c:140 | `strcspn(buf, "\n")`: the characters of the C string before its first newline |
| Client.GetLine | otp_enc.c:138-140 | an empty file gives no line; otherwise the count is between 1 and the file's length, and the buffer is one longer than the count |
| Client.GetLineOfLine | otp_enc.c:138-140 | for a line s ending in a newline the count is the length of s plus one, newline included, and the buffer holds s followed by two NULs |
| Client.GetLineOfLastLine | otp_dec.c:138-140 | a last line without a newline is counted as its length |
| Client.Main | otp_enc.c:119-222 | the client's `main` after its files are opened: `getline` of both files, `checkTexts`, then the session; `Client.ValidatesBeforeConnecting`, `Loopback.TransactConnects` and `Loopback.ServiceDelivers` state what it does |
| Client.Step | otp_enc.c:187-222 | one socket call of the client and its effect; `Client.RejectsForeignServer`, `Client.SendsInOrder` and `Client.ShortReplyStalls` state what it does |
| Client.ValidatesBeforeConnecting | otp_enc.c:150-164 | invalid input exits 1 before any socket call, with the diagnostic of the first failed check |
| Client.RejectsForeignServer | otp_enc.c:188-206 | after sending its tag, a client that gets a foreign tag back exits 2 before the length field; it names the other server exactly when that server's tag came back, otherwise only the port |
| Client.RejectsOtherServer | otp_enc.c:199-205 | when the other kind of server answers with its tag, the client names that server and exits 2 after exchanging tags |
| Client.SendsInOrder | otp_enc.c:207-220 | against its own server, when the reply arrives in full, the client sends the length field, then n text bytes, then n key bytes, reads n reply bytes, prints the reply's C string and a newline, and exits 0 |
| Client.TagOnward | otp_enc.c:197-220 | after its own tag comes back, the client sends the length field, the text and the key, reads the reply, prints it and exits 0 |
| Client.LengthOnward | otp_dec.c:207-217 | the length field goes out before the payload, carrying the same n as the text and key buffers |
| Client.TextOnward | otp_enc.c:212-220 | the text buffer of n bytes goes out before the key, then the reply is read |
| Client.KeyOnward | otp_enc.c:215-220 | after the key, the client reads n reply bytes and prints their C string and a newline |
| Client.ShortReplyStalls | otp_enc.c:99-116 | a reply short of n bytes never completes `readFromSocket`: the client prints nothing, does not close and never exits |
| Loopback.ServerServes | otp_enc_d.c:124-171 | a worker fed the bytes a same-role client sends runs the full seven-event exchange and exits 0 |
| Loopback.SameRoleSession | otp_enc.c:187-220 | both runs of a connection between a client and a server of the same kind, event by event |
| Loopback.TranscriptsMatch | otp_dec.c:187-217 | each side receives exactly the messages the other sent, in order, with the same bytes |
| Loopback.LinesRead | otp_enc.c:136-147 | valid lines read back as themselves; the text's count is its length plus the newline, and the pair passes validation |
| Loopback.ReplyCarriesTransform | otp_enc_d.c:159-164 | the client prints exactly the transform of its line under the key's prefix, then a newline, because the reply's NUL tail ends the C string |
| Loopback.ServiceDelivers | otp_enc.c:119-231 | from two files with valid first lines, a client against its own server prints the transform of s under the first len(s) key characters and a newline and exits 0 |
| Loopback.TransactConnects | otp_enc.c:136-164 | two readable lines that pass validation put the client on the network with exactly the buffers `getline` left and the text's count as n |
| Loopback.OneTimePadRoundTrip | otp_dec.c:119-229 | decrypting, with the same key file, what `otp_enc` printed gives back the original line |
| Loopback.RoleIsolation | otp_dec.c:196-206 | a client and a server of different kinds both exit 2 after the tags; no length or payload travels, and the client names the server it reached |
| Loopback.ForeignServerRun | otp_enc_d.c:126-142 | a worker reached by a client of the other kind sends its tag, closes and exits 2, with no reply among its events |
| Loopback.ForeignClientRun | otp_dec.c:196-206 | a client that reached the other kind of server reads that server's tag, names it, and exits 2 without sending any payload |
| Keygen.KeyChar | keygen.c:48-52 | every generated character is an alphabet symbol, the one numbered rand() % 27 |
| Keygen.KeyCharIsSymbol | keygen.c:48-52 | keygen's draw-to-character map is the servers' index-to-symbol map |
| Keygen.KeyCharCovers | keygen.c:48-52 | every symbol can be generated |
| Keygen.Keygen | keygen.c:46-60 | n alphabet characters, the i-th from the i-th draw, then one '\n'; just "\n" when n <= 0 |
| Dispatcher.Step | otp_enc_d.c:216-271 | keeps 0..5; the count rises by one exactly on an admission below 5 (an admission at 5 leaves it and still moves on to the check); it falls by one exactly on a nonzero waitpid result while positive; a nonzero result at a count <= 0 is exit 1; the flag is cleared only when the count is 0; an exited server stays exited |
| Dispatcher.StepFixed | otp_enc_d.c:254-267 | the corrected loop: a negative waitpid result ends the drain without changing the count; otherwise it is the loop as written |
| Dispatcher.BudgetHolds | otp_enc_d.c:212-271 | under any sequence of admissions, signals, flag checks and waitpid results, 0 <= nChildren <= 5 holds until an exit |
| Dispatcher.BudgetFromStart | otp_dec_d.c:214-275 | from the start, every trace keeps the count within 0..5 |
| Dispatcher.Happen | otp_enc_d.c:172-271 | one event of the server against an honest kernel: a child's exit raising SIGCHLD, or one step of the main loop with waitpid answered by the kernel; `Dispatcher.HappenConsistent` and `Dispatcher.LiveConsistent` state the invariant it keeps |
| Dispatcher.Waitpid | otp_enc_d.c:256 | waitpid(-1, NULL, WNOHANG) is positive iff an exited child is unreaped, 0 iff children exist but none has exited, negative iff there are none |
| Dispatcher.LiveConsistent | otp_enc_d.c:212-271 | against an honest kernel, the count equals the number of unreaped children and every exited child has set the flag, until the server exits |
| Dispatcher.Drain | otp_enc_d.c:253-267 | the drain loop run to its end leaves the draining state and keeps the count consistent with the kernel |
| Dispatcher.WrittenDrainExitsIffAllFinished | otp_enc_d.c:252-267 | as written, a drain exits the server with status 1 exactly when every unreaped child had already exited; otherwise it reaps them and returns to admitting |
| Dispatcher.WrittenExitsAfterOneClient | otp_enc_d.c:218-264 | one admission, its child's exit before the flag check, and the drain's two waitpid calls end the server with "ERROR COUNTING CHILDREN" |
| Dispatcher.FixedDrainSettles | otp_enc_d.c:253-270 | with the fix, a drain reaps exactly the exited children, returns to admitting, and clears the flag exactly when none are left |
| Dispatcher.FixedNeverExits | otp_enc_d.c:216-271 | with the fix, no interleaving ever exits the server, and the count stays equal to the unreaped children |
| Dispatcher.FixedNeverExitsFromBoot | otp_dec_d.c:214-275 | from a fresh server, the fixed loop never exits and keeps the count within budget |

## Left out

- Sockets, `fork`, signals, `sigprocmask`, file opening, `printf`: these are I/O. Each socket call is one answer from the environment. The dispatcher is a sequential event system. The SIGCHLD handler is an event that sets the flag.
- `Dispatcher.Step`: the `accept` failure ("ERROR on accept", otp_enc_d.c:229) and the `fork` failure ("Hull Breach!", otp_enc_d.c:237) exit the server; both are I/O failures and are left out, so an `Admit` event always succeeds. The `sigprocmask` failure exits around them are left out for the same reason.
- Concurrency inside a drain: a child exiting during a drain is modelled as happening between drain steps, not during a `waitpid` call.
- `calloc` failure paths, including `calloc(0)` returning NULL: the model treats every allocation as successful.
- The `strlen` over-read when a buffer has no NUL, for example the client's reply buffer when the text file's last line has no newline: `CStrings.Strlen` stops at the end of the buffer instead.
- Signed `char`: bytes above 127 are not modelled separately. Characters are Dafny `char`, and `(int)c` is the code point.
- `LengthField.Strtol`: does not saturate at LONG_MIN/LONG_MAX; the field the server parses has at most 10 characters, far from either bound.
- `Server.Step`: a short read of the 3-byte tag or the 10-byte length field is taken as the whole message. TCP segmentation is not modelled.
- `Server.Step`: `readFromSocket` of text and key is collapsed to one answer per payload: everything the peer sends before it stops. An answer shorter than the declared length stalls the worker for good; bytes past it stay unread. A partial delivery followed by a failing `recv` is not distinguished from a failing first call. `Transfer.ReadFromSocket` models the chunking on its own.
- `Client.Step`: the `writeToSocket` of the text and of the key are each one answer per payload, as on the server side, and the reply is read the same way as the server reads its payloads.
- `LengthField.Format`: only lengths 0..999999999 are modelled. At 10 digits `sprintf` writes its terminator past the 10-byte buffer.
- `Client.Main`: requires the first line's count to fit that range, for the same reason.
- `Transfer.WriteToSocket`: when the oracle's answers run out before the transfer completes, the result is `Stalled`. The C loop would keep calling; a peer that keeps returning 0 makes it spin forever.
- `Transfer.WriteToSocket`: an answer above the requested count breaks the `send`/`recv` contract. The model stops there with `Overrun` instead of following the pointer past the chunk.
- `Transfer.ReadFromSocket`: `Stalled` and `Overrun` work the same way as for `WriteToSocket`.
- `Keygen.Keygen`: a failed `write` (exit 1) is not modelled. `rand()` is the sequence of draws it returned, and the usage check on `argc` is left out.
- Command-line argument checks and `gethostbyname` failure in the clients are left out, and so is `atoi` of the port number.

## Findings

| source | as written | input that shows it | evidently intended | confidence | as-written member | corrected member |
|---|---|---|---|---|---|---|
| otp_enc_d.c:254-267 | the drain loop counts every nonzero `waitpid` result as a reaped child, including -1 (ECHILD, no children left), and exits with "ERROR COUNTING CHILDREN" when the count is already 0 | one client is admitted (nChildren = 1) and its worker exits before the parent checks `childFinished`; the drain's first `waitpid` reaps it (count 0) and the second returns -1, so the server exits 1. The same happens whenever every live worker has exited before a drain (`Dispatcher.WrittenDrainExitsIffAllFinished`). The same code is at otp_dec_d.c:256-276 | count only positive results as reaped children and stop the drain on any result <= 0: `if (childPid > 0)` together with `while (childPid > 0)`, so the server keeps running | not executed; high | Dispatcher.WrittenExitsAfterOneClient | Dispatcher.FixedNeverExits |

=== FILE: alphabet.dfy ===
/**
 * The 27-symbol alphabet of the pad: 'A'..'Z' and space.
 *
 * The servers turn a character into a number with `(int)c - 65`, replacing a
 * negative value by 26; they turn a number back into a character with
 * `v + 65`, replacing anything above 'Z' by a space. Both maps are written
 * here exactly as the C arithmetic does them, for every character, not just
 * for the alphabet.
 */
module Alphabet {

  /** The check both clients make: a character is valid unless it is below 'A' and not a space, or above 'Z'. */
  predicate IsSymbol(c: char) {
    !((c < 'A' && c != ' ') || c > 'Z')
  }

  predicate AllSymbols(s: seq<char>) {
    forall i :: 0 <= i < |s| ==> IsSymbol(s[i])
  }

  /** A number of the alphabet. */
  predicate IsIndex(v: int) {
    0 <= v <= 26
  }

  /** `p = (int)c - 65; if (p < 0) p = 26;` */
  function Index(c: char): (v: int)
    ensures IsSymbol(c) ==> IsIndex(v)
    ensures c < 'A' ==> v == 26
    ensures 'A' <= c ==> v == c as int - 'A' as int
  {
    var p := c as int - 65;
    if p < 0 then 26 else p
  }

  /** `c = v + 65; if (c > 90) c = 32;` for a number of the alphabet. */
  function Symbol(v: int): (c: char)
    requires IsIndex(v)
    ensures IsSymbol(c)
    ensures v == 26 <==> c == ' '
    ensures v < 26 ==> c as int == 'A' as int + v
  {
    var code := v + 65;
    if code > 90 then ' ' else code as char
  }

  /** Index and Symbol are inverse bijections between the alphabet and 0..26. */
  lemma SymbolIndex(c: char)
    requires IsSymbol(c)
    ensures Symbol(Index(c)) == c
  {
  }

  lemma IndexSymbol(v: int)
    requires IsIndex(v)
    ensures Index(Symbol(v)) == v
  {
  }

  /** Distinct symbols have distinct numbers. */
  lemma IndexInjective(a: char, b: char)
    requires IsSymbol(a) && IsSymbol(b)
    requires Index(a) == Index(b)
    ensures a == b
  {
    SymbolIndex(a);
    SymbolIndex(b);
  }
}

=== FILE: cipher.dfy ===
/**
 * The pad transform of the two servers: `encode` in otp_enc_d and `decode`
 * in otp_dec_d, per character and over the C buffers they are called on.
 */
module Cipher {
  import opened Alphabet
  import opened CStrings

  /** C's `/` on `int`, which truncates toward zero (Dafny's `/` rounds down for positive divisors). */
  function CQuot(a: int, b: int): int
    requires b > 0
  {
    if a >= 0 then a / b else -((-a) / b)
  }

  /**
   * C's `%`, which truncates toward zero (Dafny's `%` never goes negative):
   * the remainder C promises with `(a/b)*b + a%b == a`.
   */
  function CRem(a: int, b: int): (r: int)
    requires b > 0
    ensures a >= 0 ==> 0 <= r < b
    ensures a < 0 ==> -b < r <= 0
    ensures CQuot(a, b) * b + r == a
  {
    if a >= 0 then a % b
    else
      var q := (-a) / b;
      assert -a == q * b + (-a) % b;
      assert (-q) * b == -(q * b);
      -((-a) % b)
  }

  /**
   * The character a server writes for an output number `v`: `v + 65`, with
   * anything above 'Z' made a space. That is `Symbol` on the alphabet's
   * numbers; decode's negative remainders land below 'A'.
   */
  function OutputChar(v: int): (c: char)
    requires -27 < v <= 26
    ensures c != NUL
    ensures v < 0 ==> c as int == v + 65 && !IsSymbol(c)
  {
    if v >= 0 then Symbol(v) else (v + 65) as char
  }

  /** One step of `encode`: `c = (p + k) % 27 + 65`, then 91 becomes a space. */
  function EncodeChar(t: char, k: char): (c: char)
    ensures IsSymbol(c)
    ensures c == Symbol((Index(t) + Index(k)) % 27)
  {
    OutputChar((Index(t) + Index(k)) % 27)
  }

  /** One step of `decode`: `d = (c - k + 27) % 27 + 65` with C's remainder, then 91 becomes a space. */
  function DecodeChar(t: char, k: char): (d: char)
    ensures IsSymbol(t) && IsSymbol(k) ==> d == Symbol((Index(t) - Index(k) + 27) % 27)
  {
    OutputChar(CRem(Index(t) - Index(k) + 27, 27))
  }

  /** Decoding a symbol with a symbol key always gives a symbol. */
  lemma DecodeCharCloses(t: char, k: char)
    requires IsSymbol(t) && IsSymbol(k)
    ensures IsSymbol(DecodeChar(t, k))
  {
  }

  /**
   * The server does not check the key it receives: a key character far above
   * 'Z' drives the numerator negative, C's remainder stays negative, and the
   * decoded character falls outside the alphabet.
   */
  lemma DecodeCharLeavesAlphabetOnForeignKey()
    ensures DecodeChar('A', 'z') == '>'
    ensures !IsSymbol(DecodeChar('A', 'z'))
  {
    assert Index('A') == 0;
    assert Index('z') == 57;
    assert CRem(-30, 27) == -3;
  }

  /** Adding then subtracting `q` modulo 27, the way encode and decode compute it. */
  lemma AddSubMod(p: int, q: int)
    requires IsIndex(p) && IsIndex(q)
    ensures IsIndex((p + q) % 27)
    ensures ((p + q) % 27 - q + 27) % 27 == p
  {
    if p + q < 27 {
      assert (p + q) % 27 == p + q;
      assert (p + 27) % 27 == p;
    } else {
      assert (p + q) % 27 == p + q - 27;
      assert p % 27 == p;
    }
  }

  /** Subtracting then adding `q` modulo 27. */
  lemma SubAddMod(p: int, q: int)
    requires IsIndex(p) && IsIndex(q)
    ensures IsIndex((p - q + 27) % 27)
    ensures ((p - q + 27) % 27 + q) % 27 == p
  {
    if p - q >= 0 {
      assert (p - q + 27) % 27 == p - q;
      assert p % 27 == p;
    } else {
      assert (p - q + 27) % 27 == p - q + 27;
      assert (p + 27) % 27 == p;
    }
  }

  /** The number of an encoded symbol. */
  lemma EncodeCharIndex(t: char, k: char)
    requires IsSymbol(t) && IsSymbol(k)
    ensures Index(EncodeChar(t, k)) == (Index(t) + Index(k)) % 27
  {
    var e := (Index(t) + Index(k)) % 27;
    IndexSymbol(e);
  }

  /** The number of a decoded symbol. */
  lemma DecodeCharIndex(t: char, k: char)
    requires IsSymbol(t) && IsSymbol(k)
    ensures IsSymbol(DecodeChar(t, k))
    ensures Index(DecodeChar(t, k)) == (Index(t) - Index(k) + 27) % 27
  {
    var d := (Index(t) - Index(k) + 27) % 27;
    IndexSymbol(d);
  }

  /** Two symbols whose numbers agree modulo the key's shift round trip are equal. */
  lemma ShiftedBack(t: char, k: char, mid: char, back: char)
    requires IsSymbol(t) && IsSymbol(k) && IsSymbol(back)
    requires Index(mid) == (Index(t) + Index(k)) % 27
    requires Index(back) == (Index(mid) - Index(k) + 27) % 27
    ensures back == t
  {
    AddSubMod(Index(t), Index(k));
    IndexInjective(back, t);
  }

  /** The same, subtracting first. */
  lemma ShiftedForth(t: char, k: char, mid: char, back: char)
    requires IsSymbol(t) && IsSymbol(k) && IsSymbol(back)
    requires Index(mid) == (Index(t) - Index(k) + 27) % 27
    requires Index(back) == (Index(mid) + Index(k)) % 27
    ensures back == t
  {
    SubAddMod(Index(t), Index(k));
    IndexInjective(back, t);
  }

  /** The pad identity per character: decoding undoes encoding with the same key symbol. */
  lemma DecodeEncodeChar(t: char, k: char)
    requires IsSymbol(t) && IsSymbol(k)
    ensures DecodeChar(EncodeChar(t, k), k) == t
  {
    var ec := EncodeChar(t, k);
    EncodeCharIndex(t, k);
    DecodeCharIndex(ec, k);
    ShiftedBack(t, k, ec, DecodeChar(ec, k));
  }

  /** And encoding undoes decoding. */
  lemma EncodeDecodeChar(c: char, k: char)
    requires IsSymbol(c) && IsSymbol(k)
    ensures EncodeChar(DecodeChar(c, k), k) == c
  {
    var dc := DecodeChar(c, k);
    DecodeCharIndex(c, k);
    EncodeCharIndex(dc, k);
    ShiftedForth(c, k, dc, EncodeChar(dc, k));
  }

  /** The transform over a whole text; key positions past the text are never read. */
  function Encode(text: seq<char>, key: seq<char>): (r: seq<char>)
    requires |key| >= |text|
    ensures |r| == |text|
    ensures AllSymbols(r)
  {
    seq(|text|, i requires 0 <= i < |text| => EncodeChar(text[i], key[i]))
  }

  function Decode(text: seq<char>, key: seq<char>): (r: seq<char>)
    requires |key| >= |text|
    ensures |r| == |text|
    ensures AllSymbols(text) && AllSymbols(key[..|text|]) ==> AllSymbols(r)
  {
    var r := seq(|text|, i requires 0 <= i < |text| => DecodeChar(text[i], key[i]));
    assert AllSymbols(text) && AllSymbols(key[..|text|]) ==> AllSymbols(r) by {
      if AllSymbols(text) && AllSymbols(key[..|text|]) {
        forall i | 0 <= i < |text| ensures IsSymbol(r[i]) {
          assert key[..|text|][i] == key[i];
          DecodeCharCloses(text[i], key[i]);
        }
      }
    }
    r
  }

  /** Only the first `|text|` key characters matter. */
  lemma EncodeIgnoresKeyTail(text: seq<char>, key: seq<char>)
    requires |key| >= |text|
    ensures Encode(text, key) == Encode(text, key[..|text|])
  {
  }

  lemma DecodeIgnoresKeyTail(text: seq<char>, key: seq<char>)
    requires |key| >= |text|
    ensures Decode(text, key) == Decode(text, key[..|text|])
  {
  }

  /** Round trip of the one-time pad: decode(encode(p, k), k) == p for valid p and k. */
  lemma DecodeEncode(text: seq<char>, key: seq<char>)
    requires |key| >= |text|
    requires AllSymbols(text) && AllSymbols(key)
    ensures Decode(Encode(text, key), key) == text
  {
    var e := Encode(text, key);
    forall i | 0 <= i < |text| ensures Decode(e, key)[i] == text[i] {
      DecodeEncodeChar(text[i], key[i]);
    }
  }

  /** And the other way round: encode(decode(c, k), k) == c. */
  lemma EncodeDecode(text: seq<char>, key: seq<char>)
    requires |key| >= |text|
    requires AllSymbols(text) && AllSymbols(key)
    ensures Encode(Decode(text, key), key) == text
  {
    var d := Decode(text, key);
    forall i | 0 <= i < |text| ensures Encode(d, key)[i] == text[i] {
      EncodeDecodeChar(text[i], key[i]);
    }
  }

  /** Direction of the transform, fixed by which server is running. */
  datatype Direction = Forward | Inverse

  function Transform(dir: Direction, text: seq<char>, key: seq<char>): (r: seq<char>)
    requires |key| >= |text|
    ensures |r| == |text|
  {
    match dir
    case Forward => Encode(text, key)
    case Inverse => Decode(text, key)
  }

  /** One character of the transform. */
  function Shift(dir: Direction, t: char, k: char): char {
    match dir
    case Forward => EncodeChar(t, k)
    case Inverse => DecodeChar(t, k)
  }

  /**
   * `encode(plaintext, key, out)` / `decode(ciphertext, key, out)` over the
   * `calloc`-ed output buffer, as long as the text: the loop shifts the
   * characters before the text's first NUL (`strlen`) and leaves every other
   * position zero.
   */
  function TransformBuffer(dir: Direction, text: seq<char>, key: seq<char>): (r: seq<char>)
    requires |key| >= |text|
    ensures |r| == |text|
    ensures forall i :: 0 <= i < |text| ==> r[i] == if i < Strlen(text) then Shift(dir, text[i], key[i]) else NUL
    decreases |text|
  {
    if |text| == 0 then []
    else if text[0] == NUL then Zeros(|text|)
    else
      assert Strlen(text) == 1 + Strlen(text[1..]);
      [Shift(dir, text[0], key[0])] + TransformBuffer(dir, text[1..], key[1..])
  }

  /**
   * The loop's buffer is the transform of the text's C string under the key's
   * first `strlen` characters, then NULs, and it reads back as that transform.
   */
  lemma TransformBufferZeroed(dir: Direction, text: seq<char>, key: seq<char>)
    requires |key| >= |text|
    ensures var n := Strlen(text);
            var r := TransformBuffer(dir, text, key);
            && r == Transform(dir, CString(text), key[..n]) + Zeros(|text| - n)
            && CString(r) == Transform(dir, CString(text), key[..n])
  {
    var n := Strlen(text);
    var head := Transform(dir, CString(text), key[..n]);
    var r := TransformBuffer(dir, text, key);
    BufferSplits(dir, text, key);
    NoNulInSymbols(head, dir, CString(text), key[..n]);
    if n < |text| {
      var tail := Zeros(|text| - n - 1);
      assert Zeros(|text| - n) == [NUL] + tail;
      assert r == head + [NUL] + tail;
      StrlenOfTerminated(head, tail);
    } else {
      assert r == head;
      StrlenOfUnterminated(head);
    }
  }

  /** The buffer is the transform of the string part followed by the untouched zeros. */
  lemma BufferSplits(dir: Direction, text: seq<char>, key: seq<char>)
    requires |key| >= |text|
    ensures TransformBuffer(dir, text, key)
            == Transform(dir, CString(text), key[..Strlen(text)]) + Zeros(|text| - Strlen(text))
  {
    var n := Strlen(text);
    var head := Transform(dir, CString(text), key[..n]);
    var r := TransformBuffer(dir, text, key);
    forall i | 0 <= i < n ensures r[i] == head[i] {
      assert CString(text)[i] == text[i] && key[..n][i] == key[i];
      TransformAt(dir, CString(text), key[..n], i);
    }
  }

  /** One position of the string transform. */
  lemma TransformAt(dir: Direction, text: seq<char>, key: seq<char>, i: nat)
    requires |key| >= |text| && i < |text|
    ensures Transform(dir, text, key)[i] == Shift(dir, text[i], key[i])
  {
  }

  /** No transform output contains NUL: encode writes only symbols, decode only characters 39..91. */
  lemma NoNulInSymbols(head: seq<char>, dir: Direction, text: seq<char>, key: seq<char>)
    requires |key| >= |text|
    requires head == Transform(dir, text, key)
    ensures NUL !in head
  {
    forall i | 0 <= i < |head| ensures head[i] != NUL {
      if dir == Forward {
        assert head[i] == EncodeChar(text[i], key[i]);
      } else {
        assert head[i] == DecodeChar(text[i], key[i]);
      }
    }
  }
}

=== FILE: client.dfy ===
/**
 * The clients otp_enc and otp_dec, after their files are opened: read one
 * line of text and one line of key, validate them, then talk to the server.
 *
 * The client announces its tag and proceeds only if the server answers with
 * the same tag; otherwise it exits with status 2, naming the other server
 * when that is the one that answered. It then sends the 10-byte length
 * field, the text and the key (both of the declared length), reads a reply
 * of that same length and prints it as a C string followed by a newline.
 */
module Client {
  import opened CStrings
  import opened Alphabet
  import opened LengthField
  import opened Validate
  import opened Wire

  // ---------------------------------------------------------------- getline

  /** The result of `getline` followed by `buf[strcspn(buf, "\n")] = '\0'`. */
  datatype LineRead = EndOfFile | Line(buffer: seq<char>, count: nat)

  /** The index of the first newline, or the length when there is none. */
  function LineEnd(s: seq<char>): (i: nat)
    ensures i <= |s|
    ensures forall j :: 0 <= j < i ==> s[j] != '\n'
    ensures i < |s| ==> s[i] == '\n'
  {
    if |s| == 0 || s[0] == '\n' then 0 else 1 + LineEnd(s[1..])
  }

  /** `strcspn(buf, "\n")`: how many characters of the C string come before a newline. */
  function Strcspn(buf: seq<char>): (i: nat)
    ensures i <= Strlen(buf)
    ensures forall j :: 0 <= j < i ==> buf[j] != '\n'
    ensures i < Strlen(buf) ==> buf[i] == '\n'
  {
    LineEnd(CString(buf))
  }

  /**
   * `getline` returns -1 on an empty file; otherwise it stores the first line,
   * newline included, with a NUL after it, and returns how many characters it
   * stored. The client then overwrites the first newline with NUL.
   */
  function GetLine(file: seq<char>): (r: LineRead)
    ensures r.Line? ==> 1 <= r.count <= |file| && |r.buffer| == r.count + 1
  {
    if |file| == 0 then EndOfFile
    else
      var count := if LineEnd(file) < |file| then LineEnd(file) + 1 else |file|;
      var raw := file[..count] + [NUL];
      assert raw[|raw| - 1] == NUL;
      Line(raw[Strcspn(raw) := NUL], count)
  }

  /**
   * For a line ending in a newline, the count `getline` returns includes the
   * newline, which is now a NUL: the buffer reads back as the line alone, and
   * the count is one more than its length.
   */
  lemma GetLineOfLine(s: seq<char>, rest: seq<char>)
    requires '\n' !in s && NUL !in s
    ensures GetLine(s + "\n" + rest) == Line(s + [NUL, NUL], |s| + 1)
  {
    var file := s + "\n" + rest;
    LineEndOf(s, rest);
    var raw := file[..|s| + 1] + [NUL];
    assert file[..|s| + 1] == s + "\n";
    assert raw == s + ['\n'] + [NUL];
    StrlenOfTerminated(s + ['\n'], []);
    assert raw == s + ['\n'] + [NUL] + [];
    assert CString(raw) == s + ['\n'];
    LineEndOf(s, []);
    assert s + "\n" + [] == s + ['\n'];
    assert raw[|s| := NUL] == s + [NUL, NUL];
  }

  /** A last line without a newline: the count is its length. */
  lemma GetLineOfLastLine(s: seq<char>)
    requires |s| > 0 && '\n' !in s && NUL !in s
    ensures GetLine(s) == Line(s + [NUL], |s|)
  {
    NoNewlineEnd(s);
    var raw := s + [NUL];
    assert s[..|s|] == s;
    StrlenOfTerminated(s, []);
    assert raw == s + [NUL] + [];
    NoNewlineEnd(CString(raw));
  }

  lemma {:induction false} LineEndOf(s: seq<char>, rest: seq<char>)
    requires '\n' !in s
    ensures LineEnd(s + "\n" + rest) == |s|
  {
    if |s| > 0 {
      assert (s + "\n" + rest)[1..] == s[1..] + "\n" + rest;
      LineEndOf(s[1..], rest);
    }
  }

  lemma {:induction false} NoNewlineEnd(s: seq<char>)
    requires '\n' !in s
    ensures LineEnd(s) == |s|
  {
    if |s| > 0 {
      NoNewlineEnd(s[1..]);
    }
  }

  /** The first line, newline included, fits the 10-byte length field. */
  predicate FitsLengthField(textFile: seq<char>) {
    GetLine(textFile).Line? ==> GetLine(textFile).count <= MAX_LENGTH
  }

  // ---------------------------------------------------------------- session

  /** The buffers and declared length a validated client goes on the network with. */
  datatype Request = Request(text: seq<char>, key: seq<char>, n: nat)

  predicate Sendable(req: Request) {
    req.n <= MAX_LENGTH
  }

  /** What the client reports on stderr before it exits. */
  datatype Report =
    | Silent
    | Unreadable                    // getline found an empty file
    | Rejected(complaint: Complaint) // checkTexts failed
    | ServerIs(other: Role)         // "Could not contact otp_dec_d on port ..."
    | NoSuchServer                  // "Could not contact port ..."
    | TransportError                // error(): a socket call returned a negative value

  datatype Phase =
    | SendingTag
    | AwaitTag
    | SendingLength
    | SendingText
    | SendingKey
    | AwaitReply
    | Stalled
    | Finished(code: int, report: Report, stdout: seq<char>)

  datatype Move = Move(events: seq<Event>, next: Phase)

  function Fail(): Phase {
    Finished(1, TransportError, [])
  }

  function Step(role: Role, req: Request, phase: Phase, io: Io): Move
    requires Sendable(req)
  {
    match phase
    case SendingTag =>
      // send(fd, "enc", 3, 0)
      if io.Failed? then Move([], Fail())
      else Move([Sent(TagMsg, role.Tag())], AwaitTag)
    case AwaitTag =>
      // recv(fd, buffer, 3, 0) into a zeroed buffer, then strcmp
      if io.Failed? then Move([], Fail())
      else
        var tag := Take(io.data, 3);
        if CString(tag) == role.Tag() then Move([Received(TagMsg, tag)], SendingLength)
        else
          var report := if CString(tag) == role.Other().Tag() then ServerIs(role.Other()) else NoSuchServer;
          Move([Received(TagMsg, tag)], Finished(2, report, []))
    case SendingLength =>
      // sprintf(textLength, "%d", n); send(fd, textLength, 10, 0)
      if io.Failed? then Move([], Fail())
      else Move([Sent(LengthMsg, Format(req.n))], SendingText)
    case SendingText =>
      // writeToSocket(fd, text, n)
      if io.Failed? && req.n > 0 then Move([], Fail())
      else Move([Sent(TextMsg, Fit(req.text, req.n))], SendingKey)
    case SendingKey =>
      // writeToSocket(fd, key, n)
      if io.Failed? && req.n > 0 then Move([], Fail())
      else Move([Sent(KeyMsg, Fit(req.key, req.n))], AwaitReply)
    case AwaitReply =>
      // readFromSocket(fd, out, n) into calloc(n); printf("%s\n", out); close.
      // A reply short of n bytes keeps readFromSocket waiting for good.
      if io.Failed? && req.n > 0 then Move([], Fail())
      else if io.Ok? && |io.data| < req.n then Move([], Stalled)
      else
        var reply := Fit(if io.Ok? then io.data else [], req.n);
        Move([Received(ReplyMsg, reply), Closed], Finished(0, Silent, CString(reply) + "\n"))
    case Stalled =>
      Move([], phase)
    case Finished(_, _, _) =>
      Move([], phase)
  }

  function Drive(role: Role, req: Request, phase: Phase, ios: seq<Io>): Run<Phase>
    requires Sendable(req)
    decreases |ios|
  {
    if |ios| == 0 then Run([], phase)
    else
      var m := Step(role, req, phase, ios[0]);
      var rest := Drive(role, req, m.next, ios[1..]);
      Run(m.events + rest.events, rest.last)
  }

  /** The client's `main` from reading its two files to its exit. */
  function Main(role: Role, textFile: seq<char>, keyFile: seq<char>, ios: seq<Io>): Run<Phase>
    requires FitsLengthField(textFile)
  {
    match GetLine(textFile)
    case EndOfFile => Run([], Finished(1, Unreadable, []))
    case Line(text, n) =>
      match GetLine(keyFile)
      case EndOfFile => Run([], Finished(1, Unreadable, []))
      case Line(key, _) =>
        var code := Code(Judge(CString(text), CString(key)));
        if code < 0 then Run([], Finished(1, Rejected(Complain(code)), []))
        else Drive(role, Request(text, key, n), SendingTag, ios)
  }

  lemma {:induction false} DriveFinished(role: Role, req: Request, code: int, report: Report, out: seq<char>, ios: seq<Io>)
    requires Sendable(req)
    ensures Drive(role, req, Finished(code, report, out), ios) == Run([], Finished(code, report, out))
    decreases |ios|
  {
    if |ios| > 0 {
      DriveFinished(role, req, code, report, out, ios[1..]);
    }
  }

  /** Invalid input is reported, naming its cause, before any socket call: exit status 1, nothing on the wire. */
  lemma ValidatesBeforeConnecting(role: Role, textFile: seq<char>, keyFile: seq<char>, ios: seq<Io>)
    requires FitsLengthField(textFile)
    requires GetLine(textFile).Line? && GetLine(keyFile).Line?
    requires Judge(CString(GetLine(textFile).buffer), CString(GetLine(keyFile).buffer)) != Valid
    ensures var v := Judge(CString(GetLine(textFile).buffer), CString(GetLine(keyFile).buffer));
            Main(role, textFile, keyFile, ios) == Run([], Finished(1, Rejected(
              match v
              case KeyTooShort => KeyIsTooShort
              case TextInvalid => TextHasInvalidCharacters
              case _ => KeyHasInvalidCharacters), []))
  {
  }

  /**
   * A server that answers with a foreign tag ends the client with status 2
   * after the two tags, before the length field; the report names the other
   * server exactly when its tag is what came back.
   */
  lemma RejectsForeignServer(role: Role, req: Request, ios: seq<Io>)
    requires Sendable(req)
    requires |ios| >= 2 && ios[0].Ok? && ios[1].Ok?
    requires CString(Take(ios[1].data, 3)) != role.Tag()
    ensures var r := Drive(role, req, SendingTag, ios);
            && r.events == [Sent(TagMsg, role.Tag()), Received(TagMsg, Take(ios[1].data, 3))]
            && r.last.Finished? && r.last.code == 2 && r.last.stdout == []
            && (r.last.report == ServerIs(role.Other()) <==> CString(Take(ios[1].data, 3)) == role.Other().Tag())
            && (r.last.report != ServerIs(role.Other()) <==> r.last.report == NoSuchServer)
  {
    var tag := Take(ios[1].data, 3);
    var report := if CString(tag) == role.Other().Tag() then ServerIs(role.Other()) else NoSuchServer;
    DriveFinished(role, req, 2, report, [], ios[2..]);
    assert ios[1..][1..] == ios[2..];
    assert Drive(role, req, AwaitTag, ios[1..]) == Run([Received(TagMsg, tag)], Finished(2, report, []));
  }

  /** The server of the other kind: its tag comes back, and the client names it and exits with status 2. */
  lemma RejectsOtherServer(role: Role, req: Request, ios: seq<Io>)
    requires Sendable(req)
    requires |ios| >= 2 && ios[0].Ok? && ios[1] == Ok(role.Other().Tag())
    ensures Drive(role, req, SendingTag, ios)
            == Run([Sent(TagMsg, role.Tag()), Received(TagMsg, role.Other().Tag())], Finished(2, ServerIs(role.Other()), []))
  {
    var other := role.Other().Tag();
    assert Take(other, 3) == other;
    StrlenOfUnterminated(other);
    assert CString(other) == other;
    TagsDiffer(role, role.Other());
    RejectsForeignServer(role, req, ios);
  }

  /**
   * Against a server with the same tag the client sends the length field,
   * then the text, then the key, and reads the reply, all with the one
   * declared length `n`, and prints the reply's C string and a newline.
   */
  lemma SendsInOrder(role: Role, req: Request, ios: seq<Io>)
    requires Sendable(req)
    requires |ios| >= 6 && ios[0].Ok? && ios[1].Ok? && ios[2].Ok? && ios[3].Ok? && ios[4].Ok? && ios[5].Ok?
    requires CString(Take(ios[1].data, 3)) == role.Tag()
    requires |ios[5].data| >= req.n
    ensures var reply := Fit(ios[5].data, req.n);
            Drive(role, req, SendingTag, ios)
            == Run([Sent(TagMsg, role.Tag()), Received(TagMsg, Take(ios[1].data, 3)),
                    Sent(LengthMsg, Format(req.n)),
                    Sent(TextMsg, Fit(req.text, req.n)), Sent(KeyMsg, Fit(req.key, req.n)),
                    Received(ReplyMsg, reply), Closed],
                   Finished(0, Silent, CString(reply) + "\n"))
  {
    var later := ios[1..];
    assert later[0] == ios[1] && later[1] == ios[2] && later[2] == ios[3] && later[3] == ios[4] && later[4] == ios[5];
    TagOnward(role, req, later);
    var tail := Drive(role, req, AwaitTag, later);
    DriveUnfold(role, req, SendingTag, ios);
    assert Drive(role, req, SendingTag, ios) == Run([Sent(TagMsg, role.Tag())] + tail.events, tail.last);
  }

  /** One answered call: the step it makes, then the rest of the run. */
  lemma DriveUnfold(role: Role, req: Request, phase: Phase, ios: seq<Io>)
    requires Sendable(req) && |ios| > 0
    ensures var m := Step(role, req, phase, ios[0]);
            var rest := Drive(role, req, m.next, ios[1..]);
            Drive(role, req, phase, ios) == Run(m.events + rest.events, rest.last)
  {
  }

  /** From the server's tag on, five answered calls complete the exchange. */
  lemma TagOnward(role: Role, req: Request, ios: seq<Io>)
    requires Sendable(req)
    requires |ios| >= 5 && ios[0].Ok? && ios[1].Ok? && ios[2].Ok? && ios[3].Ok? && ios[4].Ok?
    requires CString(Take(ios[0].data, 3)) == role.Tag()
    requires |ios[4].data| >= req.n
    ensures var reply := Fit(ios[4].data, req.n);
            Drive(role, req, AwaitTag, ios)
            == Run([Received(TagMsg, Take(ios[0].data, 3)), Sent(LengthMsg, Format(req.n)),
                    Sent(TextMsg, Fit(req.text, req.n)), Sent(KeyMsg, Fit(req.key, req.n)),
                    Received(ReplyMsg, reply), Closed],
                   Finished(0, Silent, CString(reply) + "\n"))
  {
    var later := ios[1..];
    assert later[0] == ios[1] && later[1] == ios[2] && later[2] == ios[3] && later[3] == ios[4];
    LengthOnward(role, req, later);
    var tail := Drive(role, req, SendingLength, later);
    DriveUnfold(role, req, AwaitTag, ios);
    assert Drive(role, req, AwaitTag, ios) == Run([Received(TagMsg, Take(ios[0].data, 3))] + tail.events, tail.last);
  }

  /** The length field, then the payload. */
  lemma LengthOnward(role: Role, req: Request, ios: seq<Io>)
    requires Sendable(req)
    requires |ios| >= 4 && ios[0].Ok? && ios[1].Ok? && ios[2].Ok? && ios[3].Ok?
    requires |ios[3].data| >= req.n
    ensures var reply := Fit(ios[3].data, req.n);
            Drive(role, req, SendingLength, ios)
            == Run([Sent(LengthMsg, Format(req.n)),
                    Sent(TextMsg, Fit(req.text, req.n)), Sent(KeyMsg, Fit(req.key, req.n)),
                    Received(ReplyMsg, reply), Closed],
                   Finished(0, Silent, CString(reply) + "\n"))
  {
    var later := ios[1..];
    assert later[0] == ios[1] && later[1] == ios[2] && later[2] == ios[3];
    TextOnward(role, req, later);
    var tail := Drive(role, req, SendingText, later);
    DriveUnfold(role, req, SendingLength, ios);
    assert Drive(role, req, SendingLength, ios) == Run([Sent(LengthMsg, Format(req.n))] + tail.events, tail.last);
  }

  /** The text, the key, then the reply. */
  lemma TextOnward(role: Role, req: Request, ios: seq<Io>)
    requires Sendable(req)
    requires |ios| >= 3 && ios[0].Ok? && ios[1].Ok? && ios[2].Ok?
    requires |ios[2].data| >= req.n
    ensures var reply := Fit(ios[2].data, req.n);
            Drive(role, req, SendingText, ios)
            == Run([Sent(TextMsg, Fit(req.text, req.n)), Sent(KeyMsg, Fit(req.key, req.n)),
                    Received(ReplyMsg, reply), Closed],
                   Finished(0, Silent, CString(reply) + "\n"))
  {
    var later := ios[1..];
    assert later[0] == ios[1] && later[1] == ios[2];
    KeyOnward(role, req, later);
    var tail := Drive(role, req, SendingKey, later);
    DriveUnfold(role, req, SendingText, ios);
    assert Drive(role, req, SendingText, ios) == Run([Sent(TextMsg, Fit(req.text, req.n))] + tail.events, tail.last);
  }

  /** The key, then the reply. */
  lemma KeyOnward(role: Role, req: Request, ios: seq<Io>)
    requires Sendable(req)
    requires |ios| >= 2 && ios[0].Ok? && ios[1].Ok?
    requires |ios[1].data| >= req.n
    ensures var reply := Fit(ios[1].data, req.n);
            Drive(role, req, SendingKey, ios)
            == Run([Sent(KeyMsg, Fit(req.key, req.n)), Received(ReplyMsg, reply), Closed],
                   Finished(0, Silent, CString(reply) + "\n"))
  {
    var later := ios[1..];
    var reply := Fit(later[0].data, req.n);
    DriveFinished(role, req, 0, Silent, CString(reply) + "\n", later[1..]);
    DriveUnfold(role, req, AwaitReply, later);
    DriveUnfold(role, req, SendingKey, ios);
  }

  /** A stalled client makes no progress, whatever the socket does. */
  lemma {:induction false} DriveStalled(role: Role, req: Request, ios: seq<Io>)
    requires Sendable(req)
    ensures Drive(role, req, Stalled, ios) == Run([], Stalled)
    decreases |ios|
  {
    if |ios| > 0 {
      DriveStalled(role, req, ios[1..]);
    }
  }

  /** A reply short of `n` bytes: the client never prints, closes or exits. */
  lemma ShortReplyStalls(role: Role, req: Request, ios: seq<Io>)
    requires Sendable(req)
    requires |ios| > 0 && ios[0].Ok? && |ios[0].data| < req.n
    ensures Drive(role, req, AwaitReply, ios) == Run([], Stalled)
  {
    DriveStalled(role, req, ios[1..]);
    DriveUnfold(role, req, AwaitReply, ios);
  }
}

=== FILE: cstrings.dfy ===
/**
 * C string and C buffer conventions shared by the clients and the servers.
 *
 * A buffer is a `seq<char>`; a C string is the part of a buffer before its
 * first NUL. `strlen` on a buffer that holds no NUL reads past the end in C;
 * the model stops at the end of the buffer instead.
 */
module CStrings {

  const NUL: char := '\0'

  /** `strlen`: the index of the first NUL, or the buffer length if there is none. */
  function Strlen(buf: seq<char>): (n: nat)
    ensures n <= |buf|
    ensures forall i :: 0 <= i < n ==> buf[i] != NUL
    ensures n < |buf| ==> buf[n] == NUL
  {
    if |buf| == 0 || buf[0] == NUL then 0 else 1 + Strlen(buf[1..])
  }

  /** The C string a buffer holds. */
  function CString(buf: seq<char>): (s: seq<char>)
    ensures NUL !in s
    ensures s <= buf
  {
    buf[..Strlen(buf)]
  }

  /** A string with no NUL in it, followed by a NUL, reads back as itself. */
  lemma {:induction false} StrlenOfTerminated(s: seq<char>, rest: seq<char>)
    requires NUL !in s
    ensures Strlen(s + [NUL] + rest) == |s|
    ensures CString(s + [NUL] + rest) == s
  {
    if |s| == 0 {
    } else {
      assert (s + [NUL] + rest)[1..] == s[1..] + [NUL] + rest;
      StrlenOfTerminated(s[1..], rest);
    }
  }

  /** A string with no NUL in it is its own C string. */
  lemma {:induction false} StrlenOfUnterminated(s: seq<char>)
    requires NUL !in s
    ensures Strlen(s) == |s|
  {
    if |s| > 0 {
      StrlenOfUnterminated(s[1..]);
    }
  }

  /** `n` zero bytes, as `calloc` hands them out. */
  function Zeros(n: nat): (z: seq<char>)
    ensures |z| == n
    ensures forall i :: 0 <= i < n ==> z[i] == NUL
  {
    seq(n, _ => NUL)
  }

  /**
   * The first `n` bytes of `data` laid over a zeroed buffer of `n` bytes: what a
   * `calloc(n)` buffer holds after `data` was copied into it (or what a send of
   * `n` bytes from a buffer puts on the wire, a missing tail reading as NUL).
   */
  function Fit(data: seq<char>, n: nat): (buf: seq<char>)
    ensures |buf| == n
    ensures forall i :: 0 <= i < n && i < |data| ==> buf[i] == data[i]
    ensures forall i :: |data| <= i < n ==> buf[i] == NUL
  {
    if |data| >= n then data[..n] else data + Zeros(n - |data|)
  }

  /** At most the first `k` bytes: the most one `recv(fd, buf, k, 0)` can deliver. */
  function Take(data: seq<char>, k: nat): (s: seq<char>)
    ensures |s| <= k
    ensures s <= data
    ensures |data| <= k ==> s == data
  {
    if |data| <= k then data else data[..k]
  }
}

=== FILE: dispatcher.dfy ===
/**
 * The servers' `main` loop, reduced to its bookkeeping: the number of live
 * children `nChildren`, bounded by MAXCHILDREN = 5, and the flag
 * `childFinished` that the SIGCHLD handler sets.
 *
 * One pass of the loop is three steps: admit a connection (accept and fork)
 * when below the budget, look at the flag, and if it is set drain finished
 * children with `waitpid(-1, NULL, WNOHANG)` until it returns 0. The handler
 * may set the flag between any two steps. The model keeps the loop as
 * written: every nonzero `waitpid` result, -1 included, is counted as a
 * reaped child, and a count that would go below zero is a fatal exit.
 *
 * Against an honest kernel (the `World` below) this has a consequence: once
 * a drain has reaped the last child, the next `waitpid` returns -1 and the
 * server exits with status 1. `StepFixed` is the loop with the drain ending
 * on any result <= 0; with it the server never exits.
 */
module Dispatcher {
  const MAX_CHILDREN := 5

  /** Where the loop stands. */
  datatype Pc = AtAdmit | AtCheck | Draining | Exited(code: int)

  datatype State = State(nChildren: int, childFinished: bool, pc: Pc)

  const Start := State(0, false, AtAdmit)

  /**
   * Admit: the `if (nChildren < MAXCHILDREN)` block; Sigchld: the handler;
   * Check: `if (childFinished == 1)`; Wait(r): one `waitpid` that returned `r`.
   */
  datatype Event = Admit | Sigchld | Check | Wait(r: int)

  predicate WithinBudget(s: State) {
    s.pc.Exited? || 0 <= s.nChildren <= MAX_CHILDREN
  }

  /** The loop as written. An event that does not belong at the current point changes nothing. */
  function Step(s: State, e: Event): (t: State)
    ensures WithinBudget(s) ==> WithinBudget(t)
    ensures t.nChildren > s.nChildren ==> e == Admit && s.pc == AtAdmit && s.nChildren < MAX_CHILDREN
    ensures t.nChildren > s.nChildren ==> t.nChildren == s.nChildren + 1
    ensures s.pc == AtAdmit && e == Admit && s.nChildren < MAX_CHILDREN ==> t.nChildren == s.nChildren + 1 && t.pc == AtCheck
    ensures s.pc == AtAdmit && e == Admit && s.nChildren >= MAX_CHILDREN ==> t.nChildren == s.nChildren && t.pc == AtCheck
    ensures s.pc == Draining && e.Wait? && e.r != 0 && 0 < s.nChildren ==> t.nChildren == s.nChildren - 1 && t.pc == Draining
    ensures t.nChildren < s.nChildren ==> e.Wait? && e.r != 0 && s.pc == Draining && t.nChildren == s.nChildren - 1
    ensures e.Wait? && e.r != 0 && s.pc == Draining && s.nChildren <= 0 ==> t.pc == Exited(1)
    ensures s.childFinished && !t.childFinished ==> t.nChildren == 0
    ensures s.pc.Exited? ==> t == s
  {
    match (s.pc, e)
    case (AtAdmit, Admit) =>
      // accept, fork, and nChildren++ in the parent
      if s.nChildren < MAX_CHILDREN then State(s.nChildren + 1, s.childFinished, AtCheck)
      else State(s.nChildren, s.childFinished, AtCheck)
    case (AtCheck, Check) =>
      if s.childFinished then State(s.nChildren, true, Draining)
      else State(s.nChildren, false, AtAdmit)
    case (Draining, Wait(r)) =>
      if r != 0 then
        if s.nChildren <= 0 then State(s.nChildren, s.childFinished, Exited(1))  // "ERROR COUNTING CHILDREN"
        else State(s.nChildren - 1, s.childFinished, Draining)
      else State(s.nChildren, if s.nChildren == 0 then false else s.childFinished, AtAdmit)
    case (Exited(_), _) => s
    case (_, Sigchld) => State(s.nChildren, true, s.pc)
    case _ => s
  }

  /** The same loop with the drain ending on any `waitpid` result <= 0. */
  function StepFixed(s: State, e: Event): (t: State)
    ensures e.Wait? && e.r < 0 ==> t.nChildren == s.nChildren && (s.pc == Draining ==> t.pc == AtAdmit)
    ensures !(e.Wait? && e.r < 0) ==> t == Step(s, e)
  {
    match e
    case Wait(r) => Step(s, Wait(if r < 0 then 0 else r))
    case _ => Step(s, e)
  }

  function Trace(s: State, events: seq<Event>): State
    decreases |events|
  {
    if |events| == 0 then s else Trace(Step(s, events[0]), events[1..])
  }

  /** Whatever the order of admissions, signals and `waitpid` results, the count stays within 0..5. */
  lemma {:induction false} BudgetHolds(s: State, events: seq<Event>)
    requires WithinBudget(s)
    ensures WithinBudget(Trace(s, events))
    decreases |events|
  {
    if |events| > 0 {
      BudgetHolds(Step(s, events[0]), events[1..]);
    }
  }

  /** From the start, the count stays within 0..5 on every trace. */
  lemma BudgetFromStart(events: seq<Event>)
    ensures WithinBudget(Trace(Start, events))
  {
    BudgetHolds(Start, events);
  }

  // ---------------------------------------------------------------- against an honest kernel

  /** The children forked and not yet reaped, and how many of those have exited. */
  datatype Kernel = Kernel(alive: nat, finished: nat)

  /**
   * `waitpid(-1, NULL, WNOHANG)`: a child's pid (positive; its value does not
   * matter here) when one has exited, 0 when children exist but none has
   * exited, -1 (ECHILD) when there are no children.
   */
  function Waitpid(k: Kernel): (r: int)
    requires k.finished <= k.alive
    ensures r > 0 <==> k.finished > 0
    ensures r == 0 <==> k.finished == 0 && k.alive > 0
    ensures r < 0 <==> k.alive == 0
  {
    if k.finished > 0 then 1 else if k.alive > 0 then 0 else -1
  }

  datatype World = World(s: State, k: Kernel)

  const Boot := World(Start, Kernel(0, 0))

  /** ChildExits: a running child exits, and its SIGCHLD is handled. */
  datatype Happening = Loop(e: Event) | ChildExits

  function Reaped(k: Kernel, r: int): Kernel
    requires k.finished <= k.alive && (r > 0 ==> k.finished > 0)
  {
    if r > 0 then Kernel(k.alive - 1, k.finished - 1) else k
  }

  /** One thing happening to the server and its children; `fixed` selects `StepFixed`. */
  function Happen(w: World, h: Happening, fixed: bool): World
    requires w.k.finished <= w.k.alive
  {
    match h
    case ChildExits =>
      if w.k.finished < w.k.alive then World(Step(w.s, Sigchld), Kernel(w.k.alive, w.k.finished + 1)) else w
    case Loop(Admit) =>
      var t := Step(w.s, Admit);
      World(t, if t.nChildren > w.s.nChildren then Kernel(w.k.alive + 1, w.k.finished) else w.k)
    case Loop(Check) =>
      World(Step(w.s, Check), w.k)
    case Loop(Wait(_)) =>
      // the result is the kernel's, not the event's
      if w.s.pc != Draining then w
      else
        var r := Waitpid(w.k);
        World(if fixed then StepFixed(w.s, Wait(r)) else Step(w.s, Wait(r)), Reaped(w.k, r))
    case Loop(Sigchld) =>
      w
  }

  /** The count agrees with the kernel, and an exited child is always announced by the flag. */
  predicate Consistent(w: World) {
    && w.k.finished <= w.k.alive
    && (!w.s.pc.Exited? ==>
          && w.s.nChildren == w.k.alive
          && w.s.nChildren <= MAX_CHILDREN
          && (w.k.finished > 0 ==> w.s.childFinished)
          && (w.s.pc == Draining ==> w.s.childFinished))
  }

  lemma HappenConsistent(w: World, h: Happening, fixed: bool)
    requires Consistent(w)
    ensures Consistent(Happen(w, h, fixed))
  {
  }

  function Live(w: World, hs: seq<Happening>, fixed: bool): World
    requires Consistent(w)
    decreases |hs|
  {
    if |hs| == 0 then w
    else
      HappenConsistent(w, hs[0], fixed);
      Live(Happen(w, hs[0], fixed), hs[1..], fixed)
  }

  /** Every interleaving keeps the count equal to the number of unreaped children, until an exit. */
  lemma {:induction false} LiveConsistent(w: World, hs: seq<Happening>, fixed: bool)
    requires Consistent(w)
    ensures Consistent(Live(w, hs, fixed))
    decreases |hs|
  {
    if |hs| > 0 {
      HappenConsistent(w, hs[0], fixed);
      LiveConsistent(Happen(w, hs[0], fixed), hs[1..], fixed);
    }
  }

  /** The drain run to its end: `waitpid` until the loop leaves it. */
  function Drain(w: World, fixed: bool): (v: World)
    requires Consistent(w) && w.s.pc == Draining
    ensures Consistent(v) && v.s.pc != Draining
    decreases w.k.alive
  {
    HappenConsistent(w, Loop(Wait(0)), fixed);
    var u := Happen(w, Loop(Wait(0)), fixed);
    if u.s.pc == Draining then Drain(u, fixed) else u
  }

  /**
   * As written, a drain ends the server with status 1 exactly when every
   * unreaped child had already exited when the drain began: it reaps them
   * all, and the -1 that follows is counted as one more child.
   */
  lemma {:induction false} WrittenDrainExitsIffAllFinished(w: World)
    requires Consistent(w) && w.s.pc == Draining
    ensures Drain(w, false).s.pc == Exited(1) <==> w.k.finished == w.k.alive
    ensures w.k.finished < w.k.alive ==> Drain(w, false).s == State(w.k.alive - w.k.finished, true, AtAdmit)
    decreases w.k.alive
  {
    var u := Happen(w, Loop(Wait(0)), false);
    if u.s.pc == Draining {
      WrittenDrainExitsIffAllFinished(u);
    }
  }

  /** With the fix, a drain reaps exactly the exited children, never exits, and clears the flag when none are left. */
  lemma {:induction false} FixedDrainSettles(w: World)
    requires Consistent(w) && w.s.pc == Draining
    ensures Drain(w, true).s.pc == AtAdmit
    ensures Drain(w, true).s.nChildren == w.k.alive - w.k.finished
    ensures Drain(w, true).k == Kernel(w.k.alive - w.k.finished, 0)
    ensures Drain(w, true).s.childFinished <==> w.k.alive > w.k.finished
    decreases w.k.alive
  {
    var u := Happen(w, Loop(Wait(0)), true);
    if u.s.pc == Draining {
      FixedDrainSettles(u);
    }
  }

  /**
   * The shortest way to the exit: one client is admitted, its child exits
   * before the parent reaches the flag check, and the drain reaps it and
   * then counts ECHILD's -1 as a second child.
   */
  lemma WrittenExitsAfterOneClient()
    ensures Live(Boot, [Loop(Admit), ChildExits, Loop(Check), Loop(Wait(0)), Loop(Wait(0))], false).s.pc == Exited(1)
  {
    var hs := [Loop(Admit), ChildExits, Loop(Check), Loop(Wait(0)), Loop(Wait(0))];
    var w1 := World(State(1, false, AtCheck), Kernel(1, 0));
    var w2 := World(State(1, true, AtCheck), Kernel(1, 1));
    var w3 := World(State(1, true, Draining), Kernel(1, 1));
    var w4 := World(State(0, true, Draining), Kernel(0, 0));
    var w5 := World(State(0, true, Exited(1)), Kernel(0, 0));
    assert Happen(Boot, hs[0], false) == w1;
    assert Happen(w1, hs[1], false) == w2;
    assert Happen(w2, hs[2], false) == w3;
    assert Happen(w3, hs[3], false) == w4;
    assert Happen(w4, hs[4], false) == w5;
    assert hs[1..][1..][1..][1..][1..] == [];
    assert Live(w4, hs[4..], false) == w5;
    assert hs[1..][1..][1..] == hs[3..];
    assert hs[3..][1..] == hs[4..];
  }

  /** With the fix, no interleaving of admissions, exits, checks and `waitpid` calls ever ends the server. */
  lemma {:induction false} FixedNeverExits(w: World, hs: seq<Happening>)
    requires Consistent(w) && !w.s.pc.Exited?
    ensures !Live(w, hs, true).s.pc.Exited?
    ensures Consistent(Live(w, hs, true))
    decreases |hs|
  {
    if |hs| > 0 {
      HappenConsistent(w, hs[0], true);
      var u := Happen(w, hs[0], true);
      FixedNeverExits(u, hs[1..]);
    }
  }

  lemma FixedNeverExitsFromBoot(hs: seq<Happening>)
    ensures !Live(Boot, hs, true).s.pc.Exited?
    ensures Live(Boot, hs, true).s.nChildren == Live(Boot, hs, true).k.alive <= MAX_CHILDREN
  {
    FixedNeverExits(Boot, hs);
  }
}

=== FILE: keygen.dfy ===
/**
 * keygen: writes `n` random alphabet characters and a newline to stdout.
 * The random source is abstracted to the sequence of values `rand()`
 * returned, one per character; a failed `write` (exit 1) is not modelled.
 */
module Keygen {
  import opened Alphabet

  /** `c = rand() % 27`, then 0..25 become 'A'..'Z' and 26 a space. */
  function KeyChar(draw: nat): (key: char)
    ensures IsSymbol(key)
    ensures Index(key) == draw % 27
  {
    var c := draw % 27;
    if 0 <= c <= 25 then (c + 65) as char else ' '
  }

  /** The key character for a draw is the alphabet symbol numbered `draw % 27`, the numbering the servers use. */
  lemma KeyCharIsSymbol(draw: nat)
    ensures KeyChar(draw) == Symbol(draw % 27)
  {
    SymbolIndex(KeyChar(draw));
  }

  /** Every symbol is produced by some draw: the generator can emit the whole alphabet. */
  lemma KeyCharCovers(c: char)
    requires IsSymbol(c)
    ensures KeyChar(Index(c) as nat) == c
  {
    IndexInjective(KeyChar(Index(c) as nat), c);
  }

  /** The loop `for (i = 0; i < n; i++)` followed by the final '\n'. */
  function Keygen(n: int, draws: seq<nat>): (out: seq<char>)
    requires n <= |draws|
    ensures n <= 0 ==> out == "\n"
    ensures n > 0 ==> |out| == n + 1
    ensures out[|out| - 1] == '\n'
    ensures AllSymbols(out[..|out| - 1])
    ensures forall i :: 0 <= i < |out| - 1 ==> Index(out[i]) == draws[i] % 27
  {
    var body := seq(if n > 0 then n else 0, i requires 0 <= i < n => KeyChar(draws[i]));
    assert (body + "\n")[..|body|] == body;
    body + "\n"
  }
}

=== FILE: lengthfield.dfy ===
/**
 * The 10-byte length field: the client writes it with `sprintf("%d")` into
 * a zeroed 10-byte buffer and sends all 10 bytes; the server receives it into
 * a zeroed buffer and parses it with `atoi`.
 */
module LengthField {
  import opened CStrings

  const WIDTH: nat := 10

  /** The largest length whose digits and `sprintf`'s terminator both fit the 10-byte buffer. */
  const MAX_LENGTH: int := 999_999_999

  predicate IsDigit(c: char) {
    '0' <= c <= '9'
  }

  function DigitChar(d: nat): (c: char)
    requires d < 10
    ensures IsDigit(c)
  {
    ('0' as int + d) as char
  }

  function DigitValue(c: char): (d: nat)
    requires IsDigit(c)
    ensures d < 10
  {
    c as int - '0' as int
  }

  /** `%d` of a non-negative number: its decimal digits, no leading zeros, "0" for zero. */
  function Decimal(n: nat): (s: seq<char>)
    ensures 1 <= |s|
    ensures forall i :: 0 <= i < |s| ==> IsDigit(s[i])
    ensures |s| == 1 || s[0] != '0'
    decreases n
  {
    if n < 10 then [DigitChar(n)] else Decimal(n / 10) + [DigitChar(n % 10)]
  }

  /** The value of a digit string, read most significant digit first. */
  function DigitsValue(s: seq<char>): nat
    requires forall i :: 0 <= i < |s| ==> IsDigit(s[i])
  {
    if |s| == 0 then 0 else DigitsValue(s[..|s| - 1]) * 10 + DigitValue(s[|s| - 1])
  }

  /** The field the client sends: the digits of `n` in a 10-byte buffer of NULs. */
  function Format(n: int): (field: seq<char>)
    requires 0 <= n <= MAX_LENGTH
    ensures |field| == WIDTH
    ensures CString(field) == Decimal(n)
  {
    DecimalFits(n);
    var digits := Decimal(n);
    assert NUL !in digits;
    assert Zeros(WIDTH - |digits|) == [NUL] + Zeros(WIDTH - |digits| - 1);
    assert digits + Zeros(WIDTH - |digits|) == digits + [NUL] + Zeros(WIDTH - |digits| - 1);
    StrlenOfTerminated(digits, Zeros(WIDTH - |digits| - 1));
    digits + Zeros(WIDTH - |digits|)
  }

  lemma {:induction false} DecimalFits(n: nat)
    requires n <= MAX_LENGTH
    ensures |Decimal(n)| < WIDTH
  {
    DecimalLength(n, 9);
  }

  lemma {:induction false} DecimalLength(n: nat, k: nat)
    requires n < Pow10(k)
    ensures |Decimal(n)| <= if k == 0 then 1 else k
    decreases k
  {
    if n >= 10 {
      assert Pow10(0) == 1 && Pow10(1) == 10;
      DecimalLength(n / 10, k - 1);
    }
  }

  function Pow10(k: nat): (p: nat)
    ensures p >= 1
  {
    if k == 0 then 1 else 10 * Pow10(k - 1)
  }

  /** The characters C's `isspace` accepts, which `atoi` skips before the number. */
  predicate IsSpace(c: char) {
    c == ' ' || c == '\t' || c == '\n' || c == '\U{B}' || c == '\U{C}' || c == '\r'
  }

  /** The longest prefix of digits. */
  function LeadingDigits(s: seq<char>): (d: seq<char>)
    ensures d <= s
    ensures forall i :: 0 <= i < |d| ==> IsDigit(d[i])
    ensures |d| < |s| ==> !IsDigit(s[|d|])
  {
    if |s| == 0 || !IsDigit(s[0]) then []
    else
      var rest := LeadingDigits(s[1..]);
      assert [s[0]] + rest <= s by {
        assert s == [s[0]] + s[1..];
      }
      [s[0]] + rest
  }

  /**
   * `strtol(s, NULL, 10)`: skip white space, take an optional sign, read
   * digits up to the first non-digit (a NUL included).
   */
  function Strtol(s: seq<char>): int
  {
    if |s| > 0 && IsSpace(s[0]) then Strtol(s[1..])
    else if |s| > 0 && s[0] == '-' then -(DigitsValue(LeadingDigits(s[1..])) as int)
    else if |s| > 0 && s[0] == '+' then DigitsValue(LeadingDigits(s[1..]))
    else DigitsValue(LeadingDigits(s))
  }

  const INT_MIN: int := -0x8000_0000
  const INT_MAX: int := 0x7FFF_FFFF

  /** A `long` converted to a 32-bit `int`, as GCC does it: reduced modulo 2^32 into INT_MIN..INT_MAX. */
  function Int32(v: int): (r: int)
    ensures INT_MIN <= r <= INT_MAX
    ensures (v - r) % 0x1_0000_0000 == 0
    ensures INT_MIN <= v <= INT_MAX ==> r == v
  {
    var m := v % 0x1_0000_0000;
    if m > INT_MAX then m - 0x1_0000_0000 else m
  }

  /**
   * glibc's `atoi`: `(int) strtol(s, NULL, 10)`. A value outside the range of
   * `int` (undefined behaviour in ISO C) wraps around.
   */
  function Atoi(s: seq<char>): (v: int)
    ensures INT_MIN <= v <= INT_MAX
    ensures INT_MIN <= Strtol(s) <= INT_MAX ==> v == Strtol(s)
    ensures (Strtol(s) - v) % 0x1_0000_0000 == 0
  {
    Int32(Strtol(s))
  }

  /** `strtol` reads the digits `%d` wrote back as the number. */
  lemma StrtolDecimal(n: nat)
    ensures Strtol(Decimal(n)) == n
  {
    var d := Decimal(n);
    assert !IsSpace(d[0]) && d[0] != '-' && d[0] != '+';
    LeadingAll(d);
    DecimalValue(n);
  }

  /** Below 10^10, `%d` writes at most ten digits: the whole field. */
  lemma TenDigits(n: nat)
    requires n < 10_000_000_000
    ensures |Decimal(n)| <= WIDTH
  {
    assert Pow10(10) == 10_000_000_000 by {
      assert Pow10(1) == 10 && Pow10(2) == 100 && Pow10(3) == 1000;
      assert Pow10(6) == 1_000_000;
      assert Pow10(9) == 1_000_000_000;
    }
    DecimalLength(n, 10);
  }

  /**
   * Ten digits fit the field but not always an `int`: `atoi` of the digits
   * of a value above INT_MAX is that value wrapped modulo 2^32, never the
   * value itself. One past INT_MAX becomes INT_MIN; 2^32 + 5 becomes 5.
   */
  lemma AtoiWraps(v: nat)
    requires INT_MAX < v < 10_000_000_000
    ensures |Decimal(v)| <= WIDTH
    ensures Atoi(Decimal(v)) == Int32(v) != v
    ensures Int32(0x8000_0000) == INT_MIN && Int32(0x1_0000_0005) == 5
  {
    StrtolDecimal(v);
    TenDigits(v);
  }

  /** A string of digits is all leading digits. */
  lemma {:induction false} LeadingAll(d: seq<char>)
    requires forall i :: 0 <= i < |d| ==> IsDigit(d[i])
    ensures LeadingDigits(d) == d
  {
    if |d| > 0 {
      LeadingAll(d[1..]);
      assert d == [d[0]] + d[1..];
    }
  }

  /** The digits of `n` read back as `n`. */
  lemma {:induction false} DecimalValue(n: nat)
    ensures DigitsValue(Decimal(n)) == n
    decreases n
  {
    if n >= 10 {
      var s := Decimal(n);
      assert s[..|s| - 1] == Decimal(n / 10);
      DecimalValue(n / 10);
    }
  }

  /** A digit string followed by a non-digit: `LeadingDigits` stops exactly at the end of the digits. */
  lemma {:induction false} LeadingDigitsOf(d: seq<char>, rest: seq<char>)
    requires forall i :: 0 <= i < |d| ==> IsDigit(d[i])
    requires |rest| > 0 && !IsDigit(rest[0])
    ensures LeadingDigits(d + rest) == d
  {
    if |d| > 0 {
      assert (d + rest)[1..] == d[1..] + rest;
      LeadingDigitsOf(d[1..], rest);
      assert d == [d[0]] + d[1..];
    }
  }

  /**
   * The field round-trips: whatever the server's receive buffer holds after
   * the 10 field bytes (it is zeroed), `atoi` recovers the length the client
   * formatted.
   */
  lemma FieldRoundTrip(n: int, after: seq<char>)
    requires 0 <= n <= MAX_LENGTH
    ensures Atoi(Format(n) + after) == n
  {
    var digits := Decimal(n);
    DecimalFits(n);
    var pad := Zeros(WIDTH - |digits|);
    assert Format(n) + after == digits + (pad + after);
    assert !IsSpace(digits[0]) && digits[0] != '-' && digits[0] != '+';
    assert (digits + (pad + after))[0] == digits[0];
    LeadingDigitsOf(digits, pad + after);
    DecimalValue(n);
  }

  /** `%d` writes no leading zeros: distinct lengths give distinct fields. */
  lemma FormatInjective(m: int, n: int)
    requires 0 <= m <= MAX_LENGTH && 0 <= n <= MAX_LENGTH
    requires Format(m) == Format(n)
    ensures m == n
  {
    FieldRoundTrip(m, []);
    FieldRoundTrip(n, []);
    assert Format(m) + [] == Format(m);
    assert Format(n) + [] == Format(n);
  }
}

=== FILE: loopback.dfy ===
/**
 * A client and a server worker connected to each other: what one side
 * sends is what the other side's calls deliver, whole.
 *
 * The theorems here compose the two state machines: the two transcripts
 * agree, a client talking to the server of its own kind prints the transform
 * of its line, a client talking to the other kind of server gets nothing
 * through, and decoding what encoding printed gives back the original line.
 */
module Loopback {
  import opened CStrings
  import opened Alphabet
  import opened Cipher
  import opened LengthField
  import opened Validate
  import opened Wire
  import Server
  import Client

  /** The two runs of one connection. */
  datatype Session = Session(client: Run<Client.Phase>, server: Run<Server.Phase>)

  /** What the server's six calls deliver when the client sends `req` as its role `cr`. */
  function ServerInbox(cr: Role, req: Client.Request): seq<Io>
    requires Client.Sendable(req)
  {
    [Ok(cr.Tag()), Ok([]), Ok(Format(req.n)), Ok(Fit(req.text, req.n)), Ok(Fit(req.key, req.n)), Ok([])]
  }

  /** What the client's six calls deliver from a server with tag `sr` that replies `reply`. */
  function ClientInbox(sr: Role, reply: seq<char>): seq<Io> {
    [Ok([]), Ok(sr.Tag()), Ok([]), Ok([]), Ok([]), Ok(reply)]
  }

  /** The bytes of the first reply a run sent, if any. */
  function ReplyOf(events: seq<Event>): seq<char> {
    if |events| == 0 then []
    else if events[0].Sent? && events[0].kind == ReplyMsg then events[0].bytes
    else ReplyOf(events[1..])
  }

  lemma {:induction false} ReplyOfFirst(pre: seq<Event>, reply: seq<char>, post: seq<Event>)
    requires forall i :: 0 <= i < |pre| ==> !pre[i].Sent? || pre[i].kind != ReplyMsg
    ensures ReplyOf(pre + [Sent(ReplyMsg, reply)] + post) == reply
  {
    if |pre| > 0 {
      assert (pre + [Sent(ReplyMsg, reply)] + post)[1..] == pre[1..] + [Sent(ReplyMsg, reply)] + post;
      ReplyOfFirst(pre[1..], reply, post);
    }
  }

  lemma {:induction false} NoReply(events: seq<Event>)
    requires forall i :: 0 <= i < |events| ==> !events[i].Sent? || events[i].kind != ReplyMsg
    ensures ReplyOf(events) == []
  {
    if |events| > 0 {
      NoReply(events[1..]);
    }
  }

  function Connect(cr: Role, sr: Role, req: Client.Request): Session
    requires Client.Sendable(req)
  {
    var server := Server.Serve(sr, ServerInbox(cr, req));
    Session(Client.Drive(cr, req, Client.SendingTag, ClientInbox(sr, ReplyOf(server.events))), server)
  }

  /** The whole client program, from its two files, against a server of kind `sr`. */
  function Transact(cr: Role, sr: Role, textFile: seq<char>, keyFile: seq<char>): Run<Client.Phase>
    requires Client.FitsLengthField(textFile)
  {
    match Client.GetLine(textFile)
    case EndOfFile => Client.Main(cr, textFile, keyFile, [])
    case Line(text, n) =>
      match Client.GetLine(keyFile)
      case EndOfFile => Client.Main(cr, textFile, keyFile, [])
      case Line(key, _) =>
        Client.Main(cr, textFile, keyFile, ClientInbox(sr, ReplyOf(Connect(cr, sr, Client.Request(text, key, n)).server.events)))
  }

  lemma TagReadsBack(r: Role)
    ensures Take(r.Tag(), 3) == r.Tag()
    ensures CString(Take(r.Tag(), 3)) == r.Tag()
  {
    StrlenOfUnterminated(r.Tag());
  }

  lemma FitFit(data: seq<char>, n: nat)
    ensures Fit(Fit(data, n), n) == Fit(data, n)
  {
  }

  /** The reply a server of kind `role` computes from the client's buffers. */
  function ServerReply(role: Role, req: Client.Request): (reply: seq<char>)
    ensures |reply| == req.n
  {
    Server.Reply(role, Fit(req.text, req.n), Fit(req.key, req.n))
  }

  /** The server's side of a full exchange. */
  function ServerEvents(tag: seq<char>, field: seq<char>, text: seq<char>, key: seq<char>, reply: seq<char>): seq<Event> {
    [Received(TagMsg, tag), Sent(TagMsg, tag), Received(LengthMsg, field),
     Received(TextMsg, text), Received(KeyMsg, key), Sent(ReplyMsg, reply), Closed]
  }

  /** The client's side of a full exchange. */
  function ClientEvents(tag: seq<char>, field: seq<char>, text: seq<char>, key: seq<char>, reply: seq<char>): seq<Event> {
    [Sent(TagMsg, tag), Received(TagMsg, tag), Sent(LengthMsg, field),
     Sent(TextMsg, text), Sent(KeyMsg, key), Received(ReplyMsg, reply), Closed]
  }

  /** Both filters, one event at a time. */
  lemma Peel(e: Event, rest: seq<Event>)
    ensures Outbound([e] + rest) == (if e.Sent? then [(e.kind, e.bytes)] else []) + Outbound(rest)
    ensures Inbound([e] + rest) == (if e.Received? then [(e.kind, e.bytes)] else []) + Inbound(rest)
  {
    assert ([e] + rest)[1..] == rest;
  }

  /** The server's seven events, suffix by suffix. */
  lemma ServerSuffixes(tag: seq<char>, field: seq<char>, text: seq<char>, key: seq<char>, reply: seq<char>)
    ensures var se := ServerEvents(tag, field, text, key, reply);
            && se == [Received(TagMsg, tag)] + se[1..]
            && se[1..] == [Sent(TagMsg, tag)] + se[2..]
            && se[2..] == [Received(LengthMsg, field)] + se[3..]
            && se[3..] == [Received(TextMsg, text)] + se[4..]
            && se[4..] == [Received(KeyMsg, key)] + se[5..]
            && se[5..] == [Sent(ReplyMsg, reply)] + se[6..]
            && se[6..] == [Closed] + []
  {
  }

  /** The client's seven events, suffix by suffix. */
  lemma ClientSuffixes(tag: seq<char>, field: seq<char>, text: seq<char>, key: seq<char>, reply: seq<char>)
    ensures var ce := ClientEvents(tag, field, text, key, reply);
            && ce == [Sent(TagMsg, tag)] + ce[1..]
            && ce[1..] == [Received(TagMsg, tag)] + ce[2..]
            && ce[2..] == [Sent(LengthMsg, field)] + ce[3..]
            && ce[3..] == [Sent(TextMsg, text)] + ce[4..]
            && ce[4..] == [Sent(KeyMsg, key)] + ce[5..]
            && ce[5..] == [Received(ReplyMsg, reply)] + ce[6..]
            && ce[6..] == [Closed] + []
  {
  }

  lemma ServerTranscript(tag: seq<char>, field: seq<char>, text: seq<char>, key: seq<char>, reply: seq<char>)
    ensures var se := ServerEvents(tag, field, text, key, reply);
            && Inbound(se) == [(TagMsg, tag), (LengthMsg, field), (TextMsg, text), (KeyMsg, key)]
            && Outbound(se) == [(TagMsg, tag), (ReplyMsg, reply)]
            && ReplyOf(se) == reply
  {
    var se := ServerEvents(tag, field, text, key, reply);
    ServerSuffixes(tag, field, text, key, reply);
    Peel(Closed, []);
    Peel(Sent(ReplyMsg, reply), se[6..]);
    Peel(Received(KeyMsg, key), se[5..]);
    Peel(Received(TextMsg, text), se[4..]);
    Peel(Received(LengthMsg, field), se[3..]);
    Peel(Sent(TagMsg, tag), se[2..]);
    Peel(Received(TagMsg, tag), se[1..]);
    ServerReplyOf(tag, field, text, key, reply);
  }

  lemma ServerReplyOf(tag: seq<char>, field: seq<char>, text: seq<char>, key: seq<char>, reply: seq<char>)
    ensures ReplyOf(ServerEvents(tag, field, text, key, reply)) == reply
  {
    var pre := [Received(TagMsg, tag), Sent(TagMsg, tag), Received(LengthMsg, field),
                Received(TextMsg, text), Received(KeyMsg, key)];
    assert ServerEvents(tag, field, text, key, reply) == pre + [Sent(ReplyMsg, reply)] + [Closed];
    ReplyOfFirst(pre, reply, [Closed]);
  }

  lemma ClientTranscript(tag: seq<char>, field: seq<char>, text: seq<char>, key: seq<char>, reply: seq<char>)
    ensures var ce := ClientEvents(tag, field, text, key, reply);
            && Outbound(ce) == [(TagMsg, tag), (LengthMsg, field), (TextMsg, text), (KeyMsg, key)]
            && Inbound(ce) == [(TagMsg, tag), (ReplyMsg, reply)]
  {
    var ce := ClientEvents(tag, field, text, key, reply);
    ClientSuffixes(tag, field, text, key, reply);
    Peel(Closed, []);
    Peel(Received(ReplyMsg, reply), ce[6..]);
    Peel(Sent(KeyMsg, key), ce[5..]);
    Peel(Sent(TextMsg, text), ce[4..]);
    Peel(Sent(LengthMsg, field), ce[3..]);
    Peel(Received(TagMsg, tag), ce[2..]);
    Peel(Sent(TagMsg, tag), ce[1..]);
  }

  /** The server's run when the client has its role: the full exchange, with the reply computed from the client's buffers. */
  lemma ServerServes(role: Role, req: Client.Request)
    requires Client.Sendable(req)
    ensures Server.Serve(role, ServerInbox(role, req))
            == Run(ServerEvents(role.Tag(), Format(req.n), Fit(req.text, req.n), Fit(req.key, req.n), ServerReply(role, req)),
                   Server.Finished(0))
  {
    var ios := ServerInbox(role, req);
    TagReadsBack(role);
    FieldRoundTrip(req.n, []);
    assert Format(req.n) + [] == Format(req.n);
    assert Take(ios[2].data, WIDTH) == Format(req.n);
    FitFit(req.text, req.n);
    FitFit(req.key, req.n);
    Server.ServesMatchingPeer(role, ios);
  }

  /** Both runs of a connection between a client and a server of the same kind. */
  lemma SameRoleSession(role: Role, req: Client.Request)
    requires Client.Sendable(req)
    ensures var reply := ServerReply(role, req);
            var field := Format(req.n);
            var text := Fit(req.text, req.n);
            var key := Fit(req.key, req.n);
            Connect(role, role, req)
            == Session(Run(ClientEvents(role.Tag(), field, text, key, reply), Client.Finished(0, Client.Silent, CString(reply) + "\n")),
                       Run(ServerEvents(role.Tag(), field, text, key, reply), Server.Finished(0)))
  {
    var reply := ServerReply(role, req);
    ServerServes(role, req);
    ServerTranscript(role.Tag(), Format(req.n), Fit(req.text, req.n), Fit(req.key, req.n), reply);
    TagReadsBack(role);
    Client.SendsInOrder(role, req, ClientInbox(role, reply));
    FitFit(reply, req.n);
    assert Fit(reply, req.n) == reply;
  }

  /** Over one connection, each side receives exactly the messages the other sent, in order. */
  lemma TranscriptsMatch(role: Role, req: Client.Request)
    requires Client.Sendable(req)
    ensures var s := Connect(role, role, req);
            && Outbound(s.client.events) == Inbound(s.server.events)
            && Outbound(s.server.events) == Inbound(s.client.events)
  {
    var reply := ServerReply(role, req);
    SameRoleSession(role, req);
    ServerTranscript(role.Tag(), Format(req.n), Fit(req.text, req.n), Fit(req.key, req.n), reply);
    ClientTranscript(role.Tag(), Format(req.n), Fit(req.text, req.n), Fit(req.key, req.n), reply);
  }

  /** Two lines read from the files: a valid text line and a key line at least as long. */
  predicate ValidLines(s: seq<char>, k: seq<char>) {
    AllSymbols(s) && AllSymbols(k) && |s| <= |k| && |s| < MAX_LENGTH
  }

  lemma SymbolsAreNotControls(s: seq<char>)
    requires AllSymbols(s)
    ensures '\n' !in s && NUL !in s
  {
  }

  /** The buffers `getline` leaves for a line `s` that ended in a newline. */
  function LineBuffer(s: seq<char>): seq<char> {
    s + [NUL, NUL]
  }

  /** What the client reads from the two files: the lines, NUL-terminated twice, and |s| + 1 as the count. */
  lemma LinesRead(s: seq<char>, k: seq<char>, restT: seq<char>, restK: seq<char>)
    requires ValidLines(s, k)
    ensures Client.GetLine(s + "\n" + restT) == Client.Line(LineBuffer(s), |s| + 1)
    ensures Client.GetLine(k + "\n" + restK) == Client.Line(LineBuffer(k), |k| + 1)
    ensures CString(LineBuffer(s)) == s && CString(LineBuffer(k)) == k
    ensures Judge(s, k) == Valid
  {
    SymbolsAreNotControls(s);
    SymbolsAreNotControls(k);
    Client.GetLineOfLine(s, restT);
    Client.GetLineOfLine(k, restK);
    StrlenOfTerminated(s, [NUL]);
    assert LineBuffer(s) == s + [NUL] + [NUL];
    StrlenOfTerminated(k, [NUL]);
    assert LineBuffer(k) == k + [NUL] + [NUL];
  }

  /** The server's reply to those buffers reads back, as a C string, as the transform of `s`. */
  lemma ReplyCarriesTransform(role: Role, s: seq<char>, k: seq<char>)
    requires ValidLines(s, k)
    ensures var req := Client.Request(LineBuffer(s), LineBuffer(k), |s| + 1);
            Connect(role, role, req).client.last
            == Client.Finished(0, Client.Silent, Transform(role.Direction(), s, k[..|s|]) + "\n")
  {
    SymbolsAreNotControls(s);
    var n := |s| + 1;
    var req := Client.Request(LineBuffer(s), LineBuffer(k), n);
    var text := Fit(LineBuffer(s), n);
    var key := Fit(LineBuffer(k), n);
    assert text == s + [NUL] + [];
    assert key[..|s|] == k[..|s|];
    StrlenOfTerminated(s, []);
    TransformBufferZeroed(role.Direction(), text, key);
    SameRoleSession(role, req);
  }

  /**
   * A client run against the server of its own kind, from files whose first
   * lines are `s` and `k`, prints the transform of `s` under the first |s|
   * characters of `k`, and a newline, and exits with status 0.
   */
  lemma ServiceDelivers(role: Role, s: seq<char>, k: seq<char>, restT: seq<char>, restK: seq<char>)
    requires ValidLines(s, k)
    ensures Client.FitsLengthField(s + "\n" + restT)
    ensures Transact(role, role, s + "\n" + restT, k + "\n" + restK).last
            == Client.Finished(0, Client.Silent, Transform(role.Direction(), s, k[..|s|]) + "\n")
  {
    LinesRead(s, k, restT, restK);
    var req := Client.Request(LineBuffer(s), LineBuffer(k), |s| + 1);
    TransactConnects(role, role, s + "\n" + restT, k + "\n" + restK, req);
    ReplyCarriesTransform(role, s, k);
  }

  /** Two readable lines that pass validation put the client on the network with their buffers. */
  lemma TransactConnects(cr: Role, sr: Role, textFile: seq<char>, keyFile: seq<char>, req: Client.Request)
    requires Client.FitsLengthField(textFile)
    requires Client.GetLine(textFile) == Client.Line(req.text, req.n)
    requires Client.GetLine(keyFile).Line? && Client.GetLine(keyFile).buffer == req.key
    requires Judge(CString(req.text), CString(req.key)) == Valid
    ensures Client.Sendable(req)
    ensures Transact(cr, sr, textFile, keyFile) == Connect(cr, sr, req).client
  {
  }

  /** Encrypting a line and decrypting the printed result with the same key gives the line back. */
  lemma OneTimePadRoundTrip(s: seq<char>, k: seq<char>, restT: seq<char>, restK: seq<char>)
    requires ValidLines(s, k)
    ensures Client.FitsLengthField(s + "\n" + restT)
    ensures var sent := Transact(Enc, Enc, s + "\n" + restT, k + "\n" + restK);
            && sent.last.Finished? && sent.last.code == 0
            && |sent.last.stdout| == |s| + 1
            && var c := sent.last.stdout[..|s|];
               && Client.FitsLengthField(c + "\n" + restT)
               && Transact(Dec, Dec, c + "\n" + restT, k + "\n" + restK).last == Client.Finished(0, Client.Silent, s + "\n")
  {
    ServiceDelivers(Enc, s, k, restT, restK);
    var c := Encode(s, k[..|s|]);
    assert (c + "\n")[..|s|] == c;
    assert ValidLines(c, k);
    ServiceDelivers(Dec, c, k, restT, restK);
    DecodeEncode(s, k[..|s|]);
  }

  /**
   * A client connected to the other kind of server: both sides exit with
   * status 2 after exchanging tags, no length or payload travels, and the
   * client's diagnostic names the server it reached.
   */
  lemma RoleIsolation(cr: Role, sr: Role, req: Client.Request)
    requires Client.Sendable(req)
    requires cr != sr
    ensures var s := Connect(cr, sr, req);
            && s.server == Run([Received(TagMsg, cr.Tag()), Sent(TagMsg, sr.Tag()), Closed], Server.Finished(2))
            && s.client == Run([Sent(TagMsg, cr.Tag()), Received(TagMsg, sr.Tag())], Client.Finished(2, Client.ServerIs(sr), []))
            && NoPayload(s.server.events) && NoPayload(s.client.events)
  {
    ForeignServerRun(cr, sr, req);
    ForeignClientRun(cr, sr, req);
  }

  /** The server's side of a mismatched connection. */
  lemma ForeignServerRun(cr: Role, sr: Role, req: Client.Request)
    requires Client.Sendable(req)
    requires cr != sr
    ensures var r := Server.Serve(sr, ServerInbox(cr, req));
            && r == Run([Received(TagMsg, cr.Tag()), Sent(TagMsg, sr.Tag()), Closed], Server.Finished(2))
            && NoPayload(r.events) && ReplyOf(r.events) == []
  {
    TagReadsBack(cr);
    TagsDiffer(cr, sr);
    Server.RejectsForeignTag(sr, ServerInbox(cr, req));
    NoReply([Received(TagMsg, cr.Tag()), Sent(TagMsg, sr.Tag()), Closed]);
  }

  /** The client's side of a mismatched connection: it reads the other tag and gives up. */
  lemma ForeignClientRun(cr: Role, sr: Role, req: Client.Request)
    requires Client.Sendable(req)
    requires cr != sr
    ensures var r := Client.Drive(cr, req, Client.SendingTag, ClientInbox(sr, []));
            && r == Run([Sent(TagMsg, cr.Tag()), Received(TagMsg, sr.Tag())], Client.Finished(2, Client.ServerIs(sr), []))
            && NoPayload(r.events)
  {
    var events := [Sent(TagMsg, cr.Tag()), Received(TagMsg, sr.Tag())];
    assert NoPayload(events) by {
      assert forall i :: 0 <= i < |events| ==> events[i].kind == TagMsg;
    }
    assert sr == cr.Other();
    Client.RejectsOtherServer(cr, req, ClientInbox(sr, []));
  }
}

=== FILE: server.dfy ===
/**
 * One worker of otp_enc_d / otp_dec_d: `checkAndEncode` and
 * `checkAndDecode`, followed by the child's `exit(0)`.
 *
 * The worker reads the peer's 3-byte tag, always answers with its own tag,
 * and hangs up with exit status 2 unless the peer's tag was its own. It then
 * reads the 10-byte length field, the text and the key (both of the declared
 * length), transforms, and replies with exactly as many bytes. Any negative
 * socket result ends the worker through `error()` with exit status 1. A
 * payload that stops short of the declared length leaves the worker inside
 * `readFromSocket` for good: `recv` blocks, or returns 0 forever once the
 * peer has closed.
 */
module Server {
  import opened CStrings
  import opened Cipher
  import opened LengthField
  import opened Wire

  datatype Phase =
    | AwaitTag
    | Greeting(peerTag: seq<char>)
    | AwaitLength
    | AwaitText(n: nat)
    | AwaitKey(text: seq<char>)
    | Replying(reply: seq<char>)
    | Stalled
    | Finished(code: int)

  /** The effect of one answered socket call: what happened, and the next phase. */
  datatype Move = Move(events: seq<Event>, next: Phase)

  /**
   * `int nplaintext = atoi(buffer)`: the length the server allocates for.
   * It is negative when the peer sent a minus sign, or ten digits above
   * INT_MAX that wrap into the negative half.
   */
  function DeclaredLength(field: seq<char>): int {
    Atoi(field)
  }

  /**
   * The reply buffer of a worker of kind `role`: `n == |text|` zeroed bytes
   * with the transform of the text under the key written over its front.
   */
  function Reply(role: Role, text: seq<char>, key: seq<char>): (reply: seq<char>)
    requires |key| == |text|
    ensures |reply| == |text|
  {
    TransformBuffer(role.Direction(), text, key)
  }

  function Step(role: Role, phase: Phase, io: Io): Move {
    match phase
    case AwaitTag =>
      // recv(fd, buffer, 3, 0) into a zeroed buffer
      if io.Failed? then Move([], Finished(1))
      else
        var tag := Take(io.data, 3);
        Move([Received(TagMsg, tag)], Greeting(tag))
    case Greeting(peerTag) =>
      // send(fd, "enc", 3, 0), then strcmp(buffer, "enc")
      if io.Failed? then Move([], Finished(1))
      else if CString(peerTag) != role.Tag() then Move([Sent(TagMsg, role.Tag()), Closed], Finished(2))
      else Move([Sent(TagMsg, role.Tag())], AwaitLength)
    case AwaitLength =>
      // recv(fd, buffer, 10, 0) into a zeroed buffer, then atoi
      if io.Failed? then Move([], Finished(1))
      else
        var field := Take(io.data, WIDTH);
        var n := DeclaredLength(field);
        // calloc of a negative length, converted to size_t, cannot succeed
        if n < 0 then Move([Received(LengthMsg, field)], Finished(1))
        else Move([Received(LengthMsg, field)], AwaitText(n))
    case AwaitText(n) =>
      // readFromSocket(fd, text, n) into calloc(n); no call is made when n == 0.
      // It returns only once n bytes arrived; bytes past them stay in the socket.
      if io.Failed? && n > 0 then Move([], Finished(1))
      else if io.Ok? && |io.data| < n then Move([], Stalled)
      else
        var text := Fit(if io.Ok? then io.data else [], n);
        Move([Received(TextMsg, text)], AwaitKey(text))
    case AwaitKey(text) =>
      // the key has the text's length, n
      var n := |text|;
      if io.Failed? && n > 0 then Move([], Finished(1))
      else if io.Ok? && |io.data| < n then Move([], Stalled)
      else
        var key := Fit(if io.Ok? then io.data else [], n);
        var reply := Reply(role, text, key);
        Move([Received(KeyMsg, key)], Replying(reply))
    case Replying(reply) =>
      // writeToSocket(fd, out, n), close, and the child's exit(0)
      if io.Failed? && |reply| > 0 then Move([], Finished(1))
      else Move([Sent(ReplyMsg, reply), Closed], Finished(0))
    case Stalled =>
      Move([], phase)
    case Finished(code) =>
      Move([], phase)
  }

  /** Feed the answers to the worker one socket call at a time. */
  function Drive(role: Role, phase: Phase, ios: seq<Io>): Run<Phase>
    decreases |ios|
  {
    if |ios| == 0 then Run([], phase)
    else
      var m := Step(role, phase, ios[0]);
      var rest := Drive(role, m.next, ios[1..]);
      Run(m.events + rest.events, rest.last)
  }

  /** A freshly accepted connection. */
  function Serve(role: Role, ios: seq<Io>): Run<Phase> {
    Drive(role, AwaitTag, ios)
  }

  /** An exited worker makes no more calls. */
  lemma {:induction false} DriveFinished(role: Role, code: int, ios: seq<Io>)
    ensures Drive(role, Finished(code), ios) == Run([], Finished(code))
    decreases |ios|
  {
    if |ios| > 0 {
      DriveFinished(role, code, ios[1..]);
    }
  }

  /**
   * The worker always answers with its own tag before it looks at the
   * peer's, and a peer whose tag is not its own is hung up on with exit
   * status 2: no length, text, key or reply is read or written, whatever the
   * peer would have sent next.
   */
  lemma RejectsForeignTag(role: Role, ios: seq<Io>)
    requires |ios| >= 2 && ios[0].Ok? && ios[1].Ok?
    requires CString(Take(ios[0].data, 3)) != role.Tag()
    ensures Serve(role, ios) == Run([Received(TagMsg, Take(ios[0].data, 3)), Sent(TagMsg, role.Tag()), Closed], Finished(2))
    ensures NoPayload(Serve(role, ios).events)
  {
    var tag := Take(ios[0].data, 3);
    DriveFinished(role, 2, ios[2..]);
    assert ios[1..][1..] == ios[2..];
    assert Drive(role, Greeting(tag), ios[1..]) == Run([Sent(TagMsg, role.Tag()), Closed], Finished(2));
  }

  /**
   * A peer with the right tag is served: the worker reads the length field,
   * then `n` text bytes, then `n` key bytes, and replies with exactly `n`
   * bytes, the transform of the text under the key (NULs past the text's C
   * string, as the `calloc`-ed reply buffer held), then exits with status 0.
   */
  lemma ServesMatchingPeer(role: Role, ios: seq<Io>)
    requires |ios| >= 6 && ios[0].Ok? && ios[1].Ok? && ios[2].Ok? && ios[3].Ok? && ios[4].Ok? && ios[5].Ok?
    requires CString(Take(ios[0].data, 3)) == role.Tag()
    requires DeclaredLength(Take(ios[2].data, WIDTH)) >= 0
    requires |ios[3].data| >= DeclaredLength(Take(ios[2].data, WIDTH)) && |ios[4].data| >= DeclaredLength(Take(ios[2].data, WIDTH))
    ensures var n: nat := DeclaredLength(Take(ios[2].data, WIDTH));
            var text := Fit(ios[3].data, n);
            var key := Fit(ios[4].data, n);
            var reply := Reply(role, text, key);
            && Serve(role, ios) == Run([Received(TagMsg, Take(ios[0].data, 3)), Sent(TagMsg, role.Tag()),
                                       Received(LengthMsg, Take(ios[2].data, WIDTH)),
                                       Received(TextMsg, text), Received(KeyMsg, key),
                                       Sent(ReplyMsg, reply), Closed], Finished(0))
            && |text| == n && |key| == n && |reply| == n
  {
    var tag := Take(ios[0].data, 3);
    var later := ios[2..];
    assert later[0] == ios[2] && later[1] == ios[3] && later[2] == ios[4] && later[3] == ios[5];
    LengthOnward(role, later);
    var tail := Drive(role, AwaitLength, later);
    DriveUnfold(role, AwaitTag, ios);
    DriveUnfold(role, Greeting(tag), ios[1..]);
    assert ios[1..][0] == ios[1] && ios[1..][1..] == later;
    assert Serve(role, ios) == Run([Received(TagMsg, tag)] + ([Sent(TagMsg, role.Tag())] + tail.events), tail.last);
  }

  /** One answered call: the step it makes, then the rest of the run. */
  lemma DriveUnfold(role: Role, phase: Phase, ios: seq<Io>)
    requires |ios| > 0
    ensures var m := Step(role, phase, ios[0]);
            var rest := Drive(role, m.next, ios[1..]);
            Drive(role, phase, ios) == Run(m.events + rest.events, rest.last)
  {
  }

  /** From the length field on, four answered calls complete the exchange. */
  lemma LengthOnward(role: Role, ios: seq<Io>)
    requires |ios| >= 4 && ios[0].Ok? && ios[1].Ok? && ios[2].Ok? && ios[3].Ok?
    requires DeclaredLength(Take(ios[0].data, WIDTH)) >= 0
    requires |ios[1].data| >= DeclaredLength(Take(ios[0].data, WIDTH)) && |ios[2].data| >= DeclaredLength(Take(ios[0].data, WIDTH))
    ensures var n: nat := DeclaredLength(Take(ios[0].data, WIDTH));
            var text := Fit(ios[1].data, n);
            var key := Fit(ios[2].data, n);
            var reply := Reply(role, text, key);
            && Drive(role, AwaitLength, ios) == Run([Received(LengthMsg, Take(ios[0].data, WIDTH)),
                                                    Received(TextMsg, text), Received(KeyMsg, key),
                                                    Sent(ReplyMsg, reply), Closed], Finished(0))
            && |text| == n && |key| == n && |reply| == n
  {
    var n: nat := DeclaredLength(Take(ios[0].data, WIDTH));
    var later := ios[1..];
    assert later[0] == ios[1] && later[1] == ios[2] && later[2] == ios[3];
    TextOnward(role, n, later);
    var tail := Drive(role, AwaitText(n), later);
    DriveUnfold(role, AwaitLength, ios);
    assert Drive(role, AwaitLength, ios) == Run([Received(LengthMsg, Take(ios[0].data, WIDTH))] + tail.events, tail.last);
  }

  /** Reading the text, then the key, then replying. */
  lemma TextOnward(role: Role, n: nat, ios: seq<Io>)
    requires |ios| >= 3 && ios[0].Ok? && ios[1].Ok? && ios[2].Ok?
    requires |ios[0].data| >= n && |ios[1].data| >= n
    ensures var text := Fit(ios[0].data, n);
            var key := Fit(ios[1].data, n);
            var reply := Reply(role, text, key);
            && Drive(role, AwaitText(n), ios) == Run([Received(TextMsg, text), Received(KeyMsg, key),
                                                     Sent(ReplyMsg, reply), Closed], Finished(0))
            && |text| == n && |key| == n && |reply| == n
  {
    var text := Fit(ios[0].data, n);
    var later := ios[1..];
    assert later[0] == ios[1] && later[1] == ios[2];
    KeyOnward(role, text, later);
    var tail := Drive(role, AwaitKey(text), later);
    DriveUnfold(role, AwaitText(n), ios);
    assert Drive(role, AwaitText(n), ios) == Run([Received(TextMsg, text)] + tail.events, tail.last);
  }

  /** Reading the key, then replying. */
  lemma KeyOnward(role: Role, text: seq<char>, ios: seq<Io>)
    requires |ios| >= 2 && ios[0].Ok? && ios[1].Ok?
    requires |ios[0].data| >= |text|
    ensures var key := Fit(ios[0].data, |text|);
            var reply := Reply(role, text, key);
            && Drive(role, AwaitKey(text), ios) == Run([Received(KeyMsg, key), Sent(ReplyMsg, reply), Closed], Finished(0))
            && |key| == |text| && |reply| == |text|
  {
    var key := Fit(ios[0].data, |text|);
    var reply := Reply(role, text, key);
    var later := ios[1..];
    assert later[0] == ios[1];
    DriveFinished(role, 0, later[1..]);
    DriveUnfold(role, Replying(reply), later);
    DriveUnfold(role, AwaitKey(text), ios);
  }

  /** Exit status 2 happens exactly when both tag calls succeeded and the peer's tag was foreign. */
  lemma {:induction false} ExitTwoIffForeignTag(role: Role, ios: seq<Io>)
    ensures Serve(role, ios).last == Finished(2)
            <==> |ios| >= 2 && ios[0].Ok? && ios[1].Ok? && CString(Take(ios[0].data, 3)) != role.Tag()
  {
    if |ios| >= 2 && ios[0].Ok? && ios[1].Ok? && CString(Take(ios[0].data, 3)) != role.Tag() {
      RejectsForeignTag(role, ios);
    } else {
      NeverTwoPast(role, ios);
    }
  }

  /** Past a matching tag (or a failed call) no path leads to exit status 2. */
  lemma {:induction false} NeverTwoPast(role: Role, ios: seq<Io>)
    requires !(|ios| >= 2 && ios[0].Ok? && ios[1].Ok? && CString(Take(ios[0].data, 3)) != role.Tag())
    ensures Serve(role, ios).last != Finished(2)
  {
    if |ios| == 0 {
    } else if ios[0].Failed? {
      DriveFinished(role, 1, ios[1..]);
    } else if |ios| == 1 {
      assert Drive(role, Greeting(Take(ios[0].data, 3)), ios[1..]) == Run([], Greeting(Take(ios[0].data, 3)));
    } else {
      assert ios[1..][0] == ios[1];
      assert ios[1..][1..] == ios[2..];
      var tag := Take(ios[0].data, 3);
      if ios[1].Failed? {
        DriveFinished(role, 1, ios[2..]);
        assert Drive(role, Greeting(tag), ios[1..]).last == Finished(1);
      } else {
        LaterPhasesNeverTwo(role, AwaitLength, ios[2..]);
        assert Drive(role, Greeting(tag), ios[1..]).last == Drive(role, AwaitLength, ios[2..]).last;
      }
    }
  }

  /** From the length field on, every exit is 0 or 1. */
  lemma {:induction false} LaterPhasesNeverTwo(role: Role, phase: Phase, ios: seq<Io>)
    requires phase.AwaitLength? || phase.AwaitText? || phase.AwaitKey? || phase.Replying? || phase.Stalled?
             || (phase.Finished? && phase.code != 2)
    ensures Drive(role, phase, ios).last != Finished(2)
    decreases |ios|
  {
    if |ios| > 0 {
      var m := Step(role, phase, ios[0]);
      LaterPhasesNeverTwo(role, m.next, ios[1..]);
    }
  }

  /** A stalled worker makes no progress, whatever the socket does. */
  lemma {:induction false} DriveStalled(role: Role, ios: seq<Io>)
    ensures Drive(role, Stalled, ios) == Run([], Stalled)
    decreases |ios|
  {
    if |ios| > 0 {
      DriveStalled(role, ios[1..]);
    }
  }

  /**
   * A text or key that arrives short of the declared length never completes
   * `readFromSocket`: nothing more is received, no reply is sent, and the
   * worker never exits.
   */
  lemma ShortPayloadStalls(role: Role, phase: Phase, ios: seq<Io>)
    requires phase.AwaitText? || phase.AwaitKey?
    requires |ios| > 0 && ios[0].Ok?
    requires |ios[0].data| < if phase.AwaitText? then phase.n else |phase.text|
    ensures Drive(role, phase, ios) == Run([], Stalled)
  {
    DriveStalled(role, ios[1..]);
    DriveUnfold(role, phase, ios);
  }

  /**
   * `atoi` of a ten-digit field above INT_MAX wraps into `int`: a negative
   * result makes the `calloc` fail (exit status 1), a non-negative one is
   * the length the worker then reads, not the one the digits spell.
   */
  lemma OverlongLengthWraps(role: Role, v: nat)
    requires INT_MAX < v < 10_000_000_000
    ensures var field := Decimal(v);
            var n := Int32(v);
            && n != v
            && Step(role, AwaitLength, Ok(field)) == Move([Received(LengthMsg, field)], if n < 0 then Finished(1) else AwaitText(n))
  {
    AtoiWraps(v);
    var field := Decimal(v);
    assert Take(field, WIDTH) == field;
  }
}

=== FILE: transfer.dfy ===
/**
 * `writeToSocket` and `readFromSocket`, identical in all four programs: move
 * exactly `ntext` bytes through a socket in chunks of at most 1024 bytes,
 * looping over partial transfers.
 *
 * The socket is an oracle: the answers `send` and `recv` give, one per call,
 * in order. A negative `send` result, or a `recv` error, makes the program
 * call `error()` and exit with status 1. `send` and `recv` never hand over
 * more than they were asked for; an answer that does would break their
 * contract, and the model stops there (`Overrun`). When the answers run out
 * before the transfer is complete the model stops too (`Stalled`): the C loop
 * would call again, and a peer that keeps returning 0 keeps it spinning.
 */
module Transfer {

  const CHUNK: nat := 1024

  datatype Outcome = Completed | Failed | Stalled | Overrun

  /** Where the chunk holding byte `pos` ends: the next multiple of 1024, or the end of the text. */
  function ChunkEnd(pos: nat, ntext: int): int {
    var next := (pos / CHUNK + 1) * CHUNK;
    if next < ntext then next else ntext
  }

  /**
   * A request starting at `offset` asks for exactly what is left of its chunk:
   * never more than 1024 bytes, never across a chunk boundary.
   */
  predicate RestOfChunk(offset: nat, requested: nat, ntext: int) {
    0 < requested <= CHUNK && offset + requested == ChunkEnd(offset, ntext)
  }

  /** From the start of a chunk, the chunk runs 1024 bytes or to the end of the text. */
  lemma ChunkEndAligned(pos: nat, ntext: int)
    requires pos % CHUNK == 0
    ensures ChunkEnd(pos, ntext) == if pos + CHUNK < ntext then pos + CHUNK else ntext
  {
  }

  /** The next chunk starts aligned too. */
  lemma NextChunkAligned(start: nat)
    requires start % CHUNK == 0
    ensures (start + CHUNK) % CHUNK == 0
  {
  }

  /** Every byte of a chunk sees the same chunk end. */
  lemma ChunkEndStable(start: nat, pos: nat, ntext: int)
    requires start % CHUNK == 0 && start <= pos < start + CHUNK
    ensures ChunkEnd(pos, ntext) == ChunkEnd(start, ntext)
  {
    assert pos / CHUNK == start / CHUNK;
  }

  // ---------------------------------------------------------------- sending

  /** One `send(fd, text + offset, requested, 0)` and what it returned. */
  datatype SendCall = SendCall(offset: nat, requested: nat, returned: int)

  /** A call the kernel answered within its contract. */
  predicate Lawful(c: SendCall) {
    0 <= c.returned <= c.requested
  }

  /** The bytes one call handed over. */
  function Sent(text: seq<char>, c: SendCall): seq<char> {
    if 0 <= c.returned && c.offset + c.returned <= |text| then text[c.offset..c.offset + c.returned] else []
  }

  /** The bytes all the calls handed over, concatenated in call order. */
  function Accepted(text: seq<char>, calls: seq<SendCall>): seq<char> {
    if |calls| == 0 then []
    else Accepted(text, calls[..|calls| - 1]) + Sent(text, calls[|calls| - 1])
  }

  /** Each call starts where the bytes of the previous one ended; the first starts at 0. */
  predicate SendChained(calls: seq<SendCall>) {
    && (|calls| > 0 ==> calls[0].offset == 0)
    && forall i :: 0 < i < |calls| ==> calls[i].offset == calls[i - 1].offset + calls[i - 1].returned
  }

  /**
   * The shape every trace of `writeToSocket` has: one call per answer, in
   * order, each asking for the rest of its chunk and starting where the
   * previous one stopped, every call but the last answered within contract.
   */
  predicate SendShape(ntext: int, answers: seq<int>, calls: seq<SendCall>) {
    && |calls| <= |answers|
    && (forall j :: 0 <= j < |calls| ==> calls[j].returned == answers[j])
    && (forall j :: 0 <= j < |calls| ==> RestOfChunk(calls[j].offset, calls[j].requested, ntext))
    && (forall j :: 0 <= j < |calls| - 1 ==> Lawful(calls[j]))
    && SendChained(calls)
  }

  /** What the loops of `writeToSocket` keep true: the calls so far, all lawful, have handed over `text[..pos]`. */
  predicate SendProgress(text: seq<char>, ntext: int, answers: seq<int>, calls: seq<SendCall>, pos: nat) {
    && SendShape(ntext, answers, calls)
    && (forall j :: 0 <= j < |calls| ==> Lawful(calls[j]))
    && (|calls| > 0 ==> calls[|calls| - 1].offset + calls[|calls| - 1].returned == pos)
    && (|calls| == 0 ==> pos == 0)
    && pos <= |text|
    && Accepted(text, calls) == text[..pos]
  }

  /** The next call, made at `pos` for the rest of its chunk, keeps the shape. */
  lemma SendCallFacts(text: seq<char>, ntext: int, answers: seq<int>, calls: seq<SendCall>, pos: nat, call: SendCall)
    requires SendProgress(text, ntext, answers, calls, pos)
    requires |calls| < |answers| && call.returned == answers[|calls|]
    requires call.offset == pos && RestOfChunk(pos, call.requested, ntext)
    ensures SendShape(ntext, answers, calls + [call])
  {
    var calls' := calls + [call];
    forall j | 0 <= j < |calls'|
      ensures calls'[j].returned == answers[j] && RestOfChunk(calls'[j].offset, calls'[j].requested, ntext)
    {
      if j < |calls| {
        assert calls'[j] == calls[j];
      }
    }
    forall j | 0 <= j < |calls'| - 1
      ensures Lawful(calls'[j])
    {
      assert calls'[j] == calls[j];
    }
    forall i | 0 < i < |calls'|
      ensures calls'[i].offset == calls'[i - 1].offset + calls'[i - 1].returned
    {
      assert calls'[i - 1] == calls[i - 1];
      if i < |calls| {
        assert calls'[i] == calls[i];
      }
    }
  }

  /** A lawful call extends the progress by exactly the bytes it accepted. */
  lemma SendAdvance(text: seq<char>, ntext: int, answers: seq<int>, calls: seq<SendCall>, pos: nat, call: SendCall)
    requires SendProgress(text, ntext, answers, calls, pos)
    requires |calls| < |answers| && call.returned == answers[|calls|]
    requires call.offset == pos && RestOfChunk(pos, call.requested, ntext) && Lawful(call)
    requires pos + call.returned <= |text|
    ensures SendProgress(text, ntext, answers, calls + [call], pos + call.returned)
  {
    SendCallFacts(text, ntext, answers, calls, pos, call);
    var calls' := calls + [call];
    assert calls'[..|calls|] == calls;
    assert Accepted(text, calls') == text[..pos] + text[pos..pos + call.returned];
    assert text[..pos] + text[pos..pos + call.returned] == text[..pos + call.returned];
  }

  /**
   * The inner `do { send } while (leftBehind > 0)` loop: sends one chunk,
   * `text[start .. start + size]`, asking each time for what is left of it.
   */
  method SendChunk(text: seq<char>, ntext: int, answers: seq<int>, calls0: seq<SendCall>, start: nat, size: nat)
    returns (outcome: Outcome, calls: seq<SendCall>, pos: nat)
    requires SendProgress(text, ntext, answers, calls0, start)
    requires start % CHUNK == 0 && 0 < size && start + size == ChunkEnd(start, ntext) <= |text|
    ensures outcome == Completed || outcome == Stalled ==> SendProgress(text, ntext, answers, calls, pos)
    ensures outcome == Completed ==> pos == start + size
    ensures outcome == Stalled ==> |calls| == |answers| && pos < start + size
    ensures outcome == Failed || outcome == Overrun ==> SendShape(ntext, answers, calls) && |calls| > 0
    ensures outcome == Failed ==> calls[|calls| - 1].returned < 0
    ensures outcome == Overrun ==> calls[|calls| - 1].returned > calls[|calls| - 1].requested
  {
    calls := calls0;
    pos := start;
    var leftBehind := size;
    while leftBehind > 0
      invariant 0 <= leftBehind && pos + leftBehind == start + size
      invariant start <= pos
      invariant SendProgress(text, ntext, answers, calls, pos)
      decreases |answers| - |calls|
    {
      if |calls| == |answers| {
        return Stalled, calls, pos;
      }
      var charsWritten := answers[|calls|];
      ChunkEndStable(start, pos, ntext);
      var call := SendCall(pos, leftBehind, charsWritten);
      SendCallFacts(text, ntext, answers, calls, pos, call);
      if charsWritten < 0 {
        return Failed, calls + [call], pos;
      }
      if charsWritten > leftBehind {
        return Overrun, calls + [call], pos;
      }
      SendAdvance(text, ntext, answers, calls, pos, call);
      calls := calls + [call];
      leftBehind := leftBehind - charsWritten;
      pos := pos + charsWritten;
    }
    return Completed, calls, pos;
  }

  method WriteToSocket(text: seq<char>, ntext: int, answers: seq<int>) returns (outcome: Outcome, calls: seq<SendCall>)
    requires ntext <= |text|
    ensures SendShape(ntext, answers, calls)
    ensures ntext <= 0 ==> outcome == Completed && calls == []
    ensures outcome == Completed ==> ntext <= 0 || Accepted(text, calls) == text[..ntext]
    ensures outcome == Completed || outcome == Stalled ==> forall i :: 0 <= i < |calls| ==> Lawful(calls[i])
    ensures outcome == Stalled ==> |calls| == |answers| && |Accepted(text, calls)| < ntext
                                   && Accepted(text, calls) == text[..|Accepted(text, calls)|]
    ensures outcome == Failed ==> |calls| > 0 && calls[|calls| - 1].returned < 0
    ensures outcome == Overrun ==> |calls| > 0 && calls[|calls| - 1].returned > calls[|calls| - 1].requested
  {
    calls := [];
    var remaining := ntext;  // the C parameter `ntext`, counted down chunk by chunk
    var pos: nat := 0;       // how far the C pointer `text` has advanced
    while remaining > 0
      invariant ntext <= 0 ==> remaining == ntext && calls == []
      invariant ntext > 0 ==> 0 <= remaining && pos + remaining == ntext
      invariant remaining > 0 ==> pos % CHUNK == 0
      invariant SendProgress(text, ntext, answers, calls, pos)
    {
      ChunkEndAligned(pos, ntext);
      var leftBehind := if remaining >= CHUNK then CHUNK else remaining;
      remaining := remaining - leftBehind;
      NextChunkAligned(pos);
      outcome, calls, pos := SendChunk(text, ntext, answers, calls, pos, leftBehind);
      if outcome != Completed {
        return outcome, calls;
      }
    }
    return Completed, calls;
  }

  // ---------------------------------------------------------------- receiving

  /** What one `recv` call produced: the bytes, or a negative result. */
  datatype Received = Got(data: seq<char>) | RecvError

  /** One `recv(fd, text + offset, requested, 0)` and its answer. */
  datatype RecvCall = RecvCall(offset: nat, requested: nat, answer: Received)

  predicate LawfulRecv(c: RecvCall) {
    c.answer.Got? && |c.answer.data| <= c.requested
  }

  /** The bytes received over all the calls, in call order. */
  function Delivered(calls: seq<RecvCall>): seq<char> {
    if |calls| == 0 then []
    else
      var last := calls[|calls| - 1];
      Delivered(calls[..|calls| - 1]) + (if last.answer.Got? then last.answer.data else [])
  }

  /** Each call starts where the bytes of the previous one ended; the first starts at 0. */
  predicate RecvChained(calls: seq<RecvCall>) {
    |calls| > 0 ==> RecvChained(calls[..|calls| - 1]) && calls[|calls| - 1].offset == |Delivered(calls[..|calls| - 1])|
  }

  /**
   * The shape every trace of `readFromSocket` has: one call per answer, in
   * order, each asking for the rest of its chunk and starting where the bytes
   * received so far end, every call but the last answered within contract.
   */
  predicate RecvShape(ntext: int, answers: seq<Received>, calls: seq<RecvCall>) {
    && |calls| <= |answers|
    && (forall j :: 0 <= j < |calls| ==> calls[j].answer == answers[j])
    && (forall j :: 0 <= j < |calls| ==> RestOfChunk(calls[j].offset, calls[j].requested, ntext))
    && (forall j :: 0 <= j < |calls| - 1 ==> LawfulRecv(calls[j]))
    && RecvChained(calls)
  }

  /** What the loops of `readFromSocket` keep true: the lawful calls so far filled `filled[..pos]` with what arrived. */
  predicate RecvProgress(buf: seq<char>, ntext: int, answers: seq<Received>, calls: seq<RecvCall>, pos: nat, filled: seq<char>) {
    && RecvShape(ntext, answers, calls)
    && (forall j :: 0 <= j < |calls| ==> LawfulRecv(calls[j]))
    && |Delivered(calls)| == pos
    && |filled| == |buf| && pos <= |buf|
    && filled[..pos] == Delivered(calls) && filled[pos..] == buf[pos..]
  }

  /** The next call, made at `pos` for the rest of its chunk, keeps the shape. */
  lemma RecvCallFacts(buf: seq<char>, ntext: int, answers: seq<Received>, calls: seq<RecvCall>, pos: nat, filled: seq<char>, call: RecvCall)
    requires RecvProgress(buf, ntext, answers, calls, pos, filled)
    requires |calls| < |answers| && call.answer == answers[|calls|]
    requires call.offset == pos && RestOfChunk(pos, call.requested, ntext)
    ensures RecvShape(ntext, answers, calls + [call])
    ensures Delivered(calls + [call]) == Delivered(calls) + (if call.answer.Got? then call.answer.data else [])
  {
    var calls' := calls + [call];
    assert calls'[..|calls|] == calls;
    forall j | 0 <= j < |calls'|
      ensures calls'[j].answer == answers[j] && RestOfChunk(calls'[j].offset, calls'[j].requested, ntext)
    {
      if j < |calls| {
        assert calls'[j] == calls[j];
      }
    }
    forall j | 0 <= j < |calls'| - 1
      ensures LawfulRecv(calls'[j])
    {
      assert calls'[j] == calls[j];
    }
  }

  /** A lawful call writes its bytes at `pos` and nowhere else. */
  lemma RecvAdvance(buf: seq<char>, ntext: int, answers: seq<Received>, calls: seq<RecvCall>, pos: nat, filled: seq<char>, call: RecvCall)
    requires RecvProgress(buf, ntext, answers, calls, pos, filled)
    requires |calls| < |answers| && call.answer == answers[|calls|]
    requires call.offset == pos && RestOfChunk(pos, call.requested, ntext) && LawfulRecv(call)
    requires pos + |call.answer.data| <= |buf|
    ensures var data := call.answer.data;
            RecvProgress(buf, ntext, answers, calls + [call], pos + |data|, filled[..pos] + data + filled[pos + |data|..])
  {
    RecvCallFacts(buf, ntext, answers, calls, pos, filled, call);
    var data := call.answer.data;
    var filled' := filled[..pos] + data + filled[pos + |data|..];
    assert filled'[..pos + |data|] == filled[..pos] + data;
    assert filled'[pos + |data|..] == filled[pos + |data|..];
    assert filled[pos + |data|..] == buf[pos..][|data|..];
  }

  /**
   * The inner `do { recv } while (leftBehind > 0)` loop: fills one chunk,
   * positions `start .. start + size` of the buffer.
   */
  method RecvChunk(buf: seq<char>, ntext: int, answers: seq<Received>, calls0: seq<RecvCall>, start: nat, filled0: seq<char>, size: nat)
    returns (outcome: Outcome, calls: seq<RecvCall>, pos: nat, filled: seq<char>)
    requires RecvProgress(buf, ntext, answers, calls0, start, filled0)
    requires start % CHUNK == 0 && 0 < size && start + size == ChunkEnd(start, ntext) <= |buf|
    ensures outcome == Completed || outcome == Stalled ==> RecvProgress(buf, ntext, answers, calls, pos, filled)
    ensures outcome == Completed ==> pos == start + size
    ensures outcome == Stalled ==> |calls| == |answers| && pos < start + size
    ensures outcome == Failed || outcome == Overrun ==> RecvShape(ntext, answers, calls) && |calls| > 0
    ensures outcome == Failed || outcome == Overrun ==> RecvProgress(buf, ntext, answers, calls[..|calls| - 1], pos, filled)
    ensures outcome == Failed ==> calls[|calls| - 1].answer == RecvError
    ensures outcome == Overrun ==> calls[|calls| - 1].answer.Got? && |calls[|calls| - 1].answer.data| > calls[|calls| - 1].requested
  {
    calls := calls0;
    filled := filled0;
    pos := start;
    var leftBehind := size;
    while leftBehind > 0
      invariant 0 <= leftBehind && pos + leftBehind == start + size
      invariant start <= pos
      invariant RecvProgress(buf, ntext, answers, calls, pos, filled)
      decreases |answers| - |calls|
    {
      if |calls| == |answers| {
        return Stalled, calls, pos, filled;
      }
      var answer := answers[|calls|];
      ChunkEndStable(start, pos, ntext);
      var call := RecvCall(pos, leftBehind, answer);
      RecvCallFacts(buf, ntext, answers, calls, pos, filled, call);
      assert (calls + [call])[..|calls|] == calls;
      if answer.RecvError? {
        return Failed, calls + [call], pos, filled;
      }
      var data := answer.data;
      if |data| > leftBehind {
        return Overrun, calls + [call], pos, filled;
      }
      RecvAdvance(buf, ntext, answers, calls, pos, filled, call);
      filled := filled[..pos] + data + filled[pos + |data|..];
      calls := calls + [call];
      leftBehind := leftBehind - |data|;
      pos := pos + |data|;
    }
    return Completed, calls, pos, filled;
  }

  /**
   * Reads into a caller's buffer `buf` (the servers and clients pass one fresh
   * from `calloc`). On completion the first `ntext` bytes hold exactly the
   * received stream and nothing past them was touched; in every outcome but
   * `Overrun` the bytes past what was received are untouched.
   */
  method ReadFromSocket(buf: seq<char>, ntext: int, answers: seq<Received>) returns (outcome: Outcome, calls: seq<RecvCall>, filled: seq<char>)
    requires ntext <= |buf|
    ensures |filled| == |buf|
    ensures RecvShape(ntext, answers, calls)
    ensures ntext <= 0 ==> outcome == Completed && calls == [] && filled == buf
    ensures outcome == Completed ==> ntext <= 0 || (Delivered(calls) == filled[..ntext] && filled[ntext..] == buf[ntext..])
    ensures outcome == Completed || outcome == Stalled ==> var got := |Delivered(calls)|;
                                   got <= |buf| && filled[..got] == Delivered(calls) && filled[got..] == buf[got..]
    ensures outcome == Stalled ==> |calls| == |answers| && |Delivered(calls)| < ntext
    ensures outcome == Failed ==> |calls| > 0 && calls[|calls| - 1].answer == RecvError
    ensures outcome == Overrun ==> |calls| > 0 && calls[|calls| - 1].answer.Got?
                                   && |calls[|calls| - 1].answer.data| > calls[|calls| - 1].requested
  {
    calls := [];
    filled := buf;
    if ntext <= 0 {
      // the `while (ntext > 0)` loop does not run
      return Completed, calls, filled;
    }
    var remaining := ntext;
    var pos: nat := 0;
    while remaining > 0
      invariant 0 <= remaining && pos + remaining == ntext
      invariant remaining > 0 ==> pos % CHUNK == 0
      invariant RecvProgress(buf, ntext, answers, calls, pos, filled)
    {
      ChunkEndAligned(pos, ntext);
      var leftBehind := if remaining >= CHUNK then CHUNK else remaining;
      remaining := remaining - leftBehind;
      NextChunkAligned(pos);
      outcome, calls, pos, filled := RecvChunk(buf, ntext, answers, calls, pos, filled, leftBehind);
      if outcome != Completed {
        return outcome, calls, filled;
      }
    }
    return Completed, calls, filled;
  }
}

=== FILE: validate.dfy ===
/**
 * Input validation of the two clients (`checkTexts` in otp_enc and otp_dec)
 * and the diagnostic each client prints for a rejected input.
 */
module Validate {
  import opened Alphabet

  /** Why an input pair was rejected, in the order the checks are made. */
  datatype Verdict = KeyTooShort | TextInvalid | KeyInvalid | Valid

  /** The reference definition: length first, then the text, then the whole key. */
  function Judge(text: seq<char>, key: seq<char>): Verdict {
    if |text| > |key| then KeyTooShort
    else if !AllSymbols(text) then TextInvalid
    else if !AllSymbols(key) then KeyInvalid
    else Valid
  }

  /** The integer `checkTexts` returns for each verdict. */
  function Code(v: Verdict): int {
    match v
    case KeyTooShort => -1
    case TextInvalid => -2
    case KeyInvalid => -3
    case Valid => 1
  }

  /**
   * `checkTexts(text, key)` on two C strings: the length comparison, then one
   * scan over the text, then one scan over the whole key, each returning at the
   * first invalid character.
   */
  method CheckTexts(text: seq<char>, key: seq<char>) returns (code: int)
    ensures code == 1 <==> |text| <= |key| && AllSymbols(text) && AllSymbols(key)
    ensures code == -1 <==> |text| > |key|
    ensures code == -2 <==> |text| <= |key| && (exists i :: 0 <= i < |text| && !IsSymbol(text[i]))
    ensures code == -3 <==> |text| <= |key| && AllSymbols(text) && (exists i :: 0 <= i < |key| && !IsSymbol(key[i]))
    ensures code == Code(Judge(text, key))
  {
    var lenText := |text|;
    var lenKey := |key|;
    if lenText > lenKey {
      return -1;
    }
    var i := 0;
    while i < lenText
      invariant 0 <= i <= lenText
      invariant forall j :: 0 <= j < i ==> IsSymbol(text[j])
    {
      if (text[i] < 'A' && text[i] != ' ') || text[i] > 'Z' {
        return -2;
      }
      i := i + 1;
    }
    i := 0;
    while i < lenKey
      invariant 0 <= i <= lenKey
      invariant forall j :: 0 <= j < i ==> IsSymbol(key[j])
    {
      if (key[i] < 'A' && key[i] != ' ') || key[i] > 'Z' {
        return -3;
      }
      i := i + 1;
    }
    return 1;
  }

  /** What a client prints to stderr before `exit(1)` for a negative `checkTexts` result. */
  datatype Complaint = KeyIsTooShort | TextHasInvalidCharacters | KeyHasInvalidCharacters

  /** The `switch` in each client's `main`: -1 and -2 have their own message, every other code blames the key. */
  function Complain(code: int): (c: Complaint)
    requires code < 0
    ensures code == -1 <==> c == KeyIsTooShort
    ensures code == -2 <==> c == TextHasInvalidCharacters
    ensures code != -1 && code != -2 <==> c == KeyHasInvalidCharacters
  {
    if code == -1 then KeyIsTooShort
    else if code == -2 then TextHasInvalidCharacters
    else KeyHasInvalidCharacters
  }

  /** Every rejection gets the message that names its cause. */
  lemma ComplaintNamesCause(text: seq<char>, key: seq<char>)
    requires Judge(text, key) != Valid
    ensures Code(Judge(text, key)) < 0
    ensures Complain(Code(Judge(text, key))) == match Judge(text, key)
                                                case KeyTooShort => KeyIsTooShort
                                                case TextInvalid => TextHasInvalidCharacters
                                                case _ => KeyHasInvalidCharacters
  {
  }
}

=== FILE: wire.dfy ===
/**
 * What the two ends of a connection exchange, as seen by one of them.
 *
 * Each socket call a session makes is answered by the environment with an
 * `Io`: the bytes a `recv` (or a whole `readFromSocket`) delivered, or
 * success of a `send` (the bytes are then ignored), or `Failed` for a
 * negative result. The chunking inside `readFromSocket`/`writeToSocket` is
 * modelled in the Transfer module; here a payload travels as one message.
 * A session's history is the list of `Event`s it took part in.
 */
module Wire {
  import Cipher

  /** Which server a program is, or which server a client wants. */
  datatype Role = Enc | Dec {
    /** The 3-byte tag each side announces: "enc" or "dec". */
    function Tag(): string {
      match this
      case Enc => "enc"
      case Dec => "dec"
    }

    function Other(): Role {
      match this
      case Enc => Dec
      case Dec => Enc
    }

    /** otp_enc_d encodes, otp_dec_d decodes. */
    function Direction(): Cipher.Direction {
      match this
      case Enc => Cipher.Forward
      case Dec => Cipher.Inverse
    }
  }

  lemma TagsDiffer(a: Role, b: Role)
    ensures a.Tag() == b.Tag() <==> a == b
  {
  }

  /** The environment's answer to one socket call. */
  datatype Io = Ok(data: seq<char>) | Failed

  /** The messages of the protocol, in the order they travel. */
  datatype Kind = TagMsg | LengthMsg | TextMsg | KeyMsg | ReplyMsg

  datatype Event =
    | Sent(kind: Kind, bytes: seq<char>)
    | Received(kind: Kind, bytes: seq<char>)
    | Closed

  /** A session so far: what happened, and where it stands. */
  datatype Run<P> = Run(events: seq<Event>, last: P)

  /** The bytes of the messages this side sent, in order. */
  function Outbound(events: seq<Event>): seq<(Kind, seq<char>)> {
    if |events| == 0 then []
    else
      var rest := Outbound(events[1..]);
      if events[0].Sent? then [(events[0].kind, events[0].bytes)] + rest else rest
  }

  /** The bytes of the messages this side received, in order. */
  function Inbound(events: seq<Event>): seq<(Kind, seq<char>)> {
    if |events| == 0 then []
    else
      var rest := Inbound(events[1..]);
      if events[0].Received? then [(events[0].kind, events[0].bytes)] + rest else rest
  }

  /** A payload message: text, key or reply. */
  predicate IsPayload(e: Event) {
    (e.Sent? || e.Received?) && (e.kind == TextMsg || e.kind == KeyMsg || e.kind == ReplyMsg)
  }

  predicate NoPayload(events: seq<Event>) {
    forall i :: 0 <= i < |events| ==> !IsPayload(events[i])
  }
}
